=== FILE: README.md ===
# Java exercise generator — a Dafny model

`generate-exercises.py` reads a list of exercise entries and lays out a
multi-module Maven project with one module per entry. A `code` entry gets
a solution stub declaring one static method and, when the entry has test
cases and all of them render, a JUnit test class built from those cases. Other entries get a
placeholder `verify.sh`.

This project models the pure core of that generator and proves properties
of it:

- `Identifiers`: `slugify` (the module directory name) and
  `title_to_classname` (the entry class filled in when `entry_class` is
  missing).
- `Signatures`: `parse_method_signature`, including the regular expression
  it matches with, and its partner. The partner is the
  `{ret_type} {method_name}({params_str})` line that the stub writes, which
  is parsed back.
- `Literals`: `java_literal`, over a closed `Value` type that stands for
  YAML values, with readers for the literals it writes.
- `Stubs`: the default-return table of `render_solution_class` and the
  text of the stub, both as written. Beside them sit a corrected table and
  the stub it gives, and a small model of Java's assignment rules (sections
  5.1.2 and 5.2 of the Java Language Specification). That model decides
  whether a placeholder compiles.
- `TestClasses`: the loop of `render_test_class`: the arity check, literal
  rendering, and the choice of assertion by return type.
- `Generator`: what `main` does with each entry:
  - the `env` default;
  - auto-filled entry class and signature;
  - the fallback signature after a parse error;
  - when tests are written or skipped;
  - the errors and notices recorded.

  It also models the run over all entries. How each entry's module block
  ends is given as a parameter: nothing raises, creating the directory
  raises, or something raises after the directory was listed.

Supporting modules: `Results` (`Option`, `Result`), `Text` (ASCII character
classes, trimming, `split`, `join`) and `Decimal` (`str(int)` and its
reader).

Three behaviours of the code worth knowing:

- A test case with more arguments than parameters is accepted. The extra
  arguments are ignored (`TestClasses.CaseIgnoresExtraArgs`). Only too few
  arguments raise an error.
- The element type of a list literal is chosen from its first element
  alone. The later elements are not checked to be of the same kind, so
  `[True, 2]` renders as `new int[]{true,2}`.
- An entry whose `pom.xml` or `README.md` write fails, or whose
  `make_readme` raises on the entry's data, has its module directory
  created already. It is then both listed as a module and listed as
  skipped.

## Model

| member | source | states |
|---|---|---|
| Identifiers.Slugify | generate-exercises.py:24-28 | A slug contains only lower-case letters, digits and hyphens, and never starts or ends with a hyphen. |
| Identifiers.SlugKeepsAlnums | generate-exercises.py:24-28 | The letters and digits of the slug are those of the title, lower-cased and in order. Only punctuation is dropped and separators rewritten. |
| Identifiers.CollapseRun | generate-exercises.py:27 | A maximal run of whitespace and underscores, however long, becomes exactly one hyphen. The text on each side of the run is collapsed on its own. |
| Identifiers.SlugOfWords | generate-exercises.py:24-28 | Words of lower-case letters and digits, separated by one run of whitespace or underscores, slugify to the words joined by single hyphens. |
| Identifiers.StripDashesSplit | generate-exercises.py:27 | `strip("-")` removes only hyphens, and only at the two ends: the input is the result with a run of hyphens on either side. |
| Identifiers.SlugifyFixes | generate-exercises.py:24-28 | A string of slug characters with no hyphen at either end is its own slug. |
| Identifiers.SlugifyIdempotent | generate-exercises.py:24-28 | Slugifying a slug changes nothing. |
| Identifiers.TitleToClassName | generate-exercises.py:30-34 | The class name is non-empty, alphanumeric, and starts with an upper-case letter, so it is a legal Java type name. |
| Identifiers.ClassNameSpellsTitle | generate-exercises.py:30-34 | Up to letter case, the class name spells the title's letters and digits in order. It gets an `Exercise` prefix exactly when those are empty or start with a digit. |
| Signatures.MatchShapeIsRegex | generate-exercises.py:43-45 | The staged matcher accepts an input with given groups exactly when the input splits as the regex `\s*(\S+)\s+([A-Za-z_]\w*)\s*\((.*)\)\s*$` describes, with those groups. |
| Signatures.ParseParts | generate-exercises.py:49-57 | The parameter list parses exactly when every comma-separated part has at least two words. Each parameter's name is the last word of its part and its type is the other words joined by single spaces. A failure is a parameter error. |
| Signatures.ParsePartsReportsFirstBad | generate-exercises.py:51-54 | A failing parameter list reports the first part with fewer than two words, stripped, together with the whole signature. |
| Signatures.FormatThenParse | generate-exercises.py:36-58 | Round trip: any well-formed signature, written as the stub writes it, parses back to itself. |
| Signatures.ParsedIsWellFormed | generate-exercises.py:36-58 | Every signature the parser accepts is well formed, so writing it and parsing it again gives the same result. |
| Decimal.IntTextRoundTrip | generate-exercises.py:69-70 | The decimal text of an integer reads back as that integer. |
| Literals.UnescapeEscape | generate-exercises.py:74 | Escaping backslashes and then quotes can be undone. |
| Literals.StringLiteralRoundTrip | generate-exercises.py:73-75 | A string's Java literal reads back as the string. |
| Literals.RenderOk | generate-exercises.py:60-95 | Rendering succeeds exactly for the supported values. These are every scalar, the empty list, lists led by a string, int or bool whose elements are all supported, and lists led by a list whose elements are all rows of ints and bools. |
| Literals.RenderRowsOk | generate-exercises.py:89-94 | The rows of a nested array render exactly when every row is a list of ints and bools. |
| Literals.ScalarLiterals | generate-exercises.py:65-75 | Every scalar renders. `None` becomes `null`, a bool becomes `true` or `false`, an int reads back as itself, and a string reads back as itself. |
| Literals.ArrayShape | generate-exercises.py:76-94 | A rendered list is `new T{...}`, where `T` is fixed by the first element alone: `String[]`, `int[][]` or `int[]`. |
| Literals.ArrayElements | generate-exercises.py:76-94 | Between the braces of a rendered list: nothing for the empty list; for a list not led by a list, the literals of its elements, in order, one per element; for a list led by a list, the literal `new int[]{...}` of each row, in order. |
| Literals.RenderAllEach | generate-exercises.py:80-86 | Each rendered element is the literal of the element at the same position. |
| Literals.RowElementsEach | generate-exercises.py:91 | Each element of a rendered row is an int or a bool, written as the decimal text of `int()` of it. |
| Literals.RenderRowsEach | generate-exercises.py:89-94 | Each rendered row is the `int[]` literal of the row at the same position, and every row is a list. |
| Literals.BoolLedList | generate-exercises.py:84-86 | Every renderable list led by a bool is created as `int[]` from the literals of its elements, and its leading bool is written `true` or `false`. |
| Literals.IntArrayRoundTrip | generate-exercises.py:84-86 | A list of ints renders to an `int[]` literal that reads back as that list. |
| Stubs.DefaultReturn | generate-exercises.py:160-175 | The corrected table has no statement exactly for `void`. It agrees with the table as written on every type except `float`. |
| Stubs.DefaultReturnCompiles | generate-exercises.py:158-175 | For every known return type, the placeholder statement compiles under Java's assignment rules. |
| Stubs.FloatDefaultAsWrittenFails | generate-exercises.py:167-168 | As written, a `float` method gets `return 0.0;`, which Java rejects. |
| Stubs.StubDeclaresSignature | generate-exercises.py:158-186 | The declaration line of the stub parses back to the signature it was made from. Its body line is the placeholder of the table as written, and for a known return type it compiles exactly when that type is not `float`. |
| Stubs.SolutionClassLines | generate-exercises.py:177-186 | Read back line by line, the stub file is its eight lines and the empty text after the final newline, when the package, class name and signature hold no line break. |
| Stubs.AsWrittenCompiles | generate-exercises.py:158-175 | For a known return type, the placeholder of the table as written compiles exactly when the type is not `float`. |
| Stubs.CorrectedStubCompiles | generate-exercises.py:158-186 | The corrected stub declares the same method as the stub as written, is the same text for every return type except `float`, and its body line compiles for every known return type. |
| TestClasses.ArgLiteralsOk | generate-exercises.py:202-208 | The argument literals render exactly when every parameter has an argument and each of those arguments is supported. |
| TestClasses.ArgLiteralsEach | generate-exercises.py:202-209 | Each argument literal is the literal of the argument at the same position. |
| TestClasses.CaseTooFewArgs | generate-exercises.py:198-205 | A case with too few arguments, all of them supported, renders as the arity error naming both counts. |
| TestClasses.ArgLiteralsTooFew | generate-exercises.py:203-205 | Too few arguments whose literals render raise the arity error, which names both counts. |
| TestClasses.CaseIgnoresExtraArgs | generate-exercises.py:203-208 | Arguments beyond the parameter count do not change a case's assertion. |
| TestClasses.CaseAssertionOk | generate-exercises.py:198-220 | A case renders exactly when it has enough supported arguments and, unless the method returns `boolean`, a supported expected value. |
| TestClasses.BooleanIgnoresExpected | generate-exercises.py:212-216 | For a `boolean` method, only the truthiness of the expected value matters. |
| TestClasses.CaseArguments | generate-exercises.py:209-220 | The call passes the rendered arguments in parameter order. A `boolean` method's assertion takes only the call. Other assertions take the expected literal first and the call second, plus the tolerance `1e-9` for `double` and `float`. |
| TestClasses.CaseAssertionsFirstError | generate-exercises.py:198-208 | A failing test class reports the error of its first failing case. |
| TestClasses.RenderTestClassOk | generate-exercises.py:188-223 | The test class renders exactly when every case renders. |
| TestClasses.CaseAssertionsEach | generate-exercises.py:198-220 | The assertions are those of the cases, in case order. |
| TestClasses.TestClassLines | generate-exercises.py:188-223 | The test class has one line per case plus ten fixed lines. Line `8 + k` is the assertion of case `k`, and the method is closed after the last case. |
| Generator.PlanKind | generate-exercises.py:270-288 | A missing type means `env`, with a warning. Only `code` entries get Java sources, and other entries record no errors. |
| Generator.DefaultSignatureParses | generate-exercises.py:295-306 | The auto-filled `void run()` parses to the same signature as the fallback. |
| Generator.StubSignatureWellFormed | generate-exercises.py:299-306 | The stub always declares a signature that survives writing and parsing again. After a parse error that signature is the fallback. |
| Generator.PlanFillsIn | generate-exercises.py:289-297 | A missing or empty entry class becomes the title's class name, a legal identifier. A missing or empty signature becomes `void run()`. A notice is recorded for each. |
| Generator.PlanSignature | generate-exercises.py:299-306 | The stub carries the parsed signature. On a parse error it carries the fallback, and that error is the first recorded. |
| Generator.PlanStubDeclares | generate-exercises.py:313-315 | The stub is always written, and its declaration line parses back to the signature the module carries. |
| Generator.PlanTests | generate-exercises.py:317-329 | A test class is written exactly when there are cases and every case renders. No cases gives a notice. A render failure is recorded as the last error. |
| Generator.TestClassRenders | generate-exercises.py:317-327 | At most one test error is recorded per entry. It is recorded exactly when there are cases and one of them fails to render. |
| Generator.RunCounts | generate-exercises.py:279-345 | One module is listed per entry whose directory was created, and one skipped entry per entry whose module block raised. Each skipped entry has an error. |
| Generator.RunModules | generate-exercises.py:279-345 | An entry whose directory was created is listed. If a later write raised, it is also listed as skipped. |
| Generator.RunWithoutFaults | generate-exercises.py:267-345 | When no entry's module block raises, every entry is listed as a module, in entry order, and nothing is skipped. |

## Left out

- Character set: text is ASCII. Python's Unicode-aware `lower`, `title`,
  `isalnum`, `\w` and `\s` are modelled on ASCII only.
- Float values carry their `repr` text, which `java_literal` copies. How
  Python chooses that text is not modelled.
- Literals.RenderRowsOk: a row element that is a float or a numeric string
  counts as a failure. `int()` would accept it, but converting those is not
  modelled.
- A test case that is not a mapping, or whose `args` is not a list, is not
  modelled. Cases are given as an argument list and an expected value.
- The POM and README templates, `make_readme`, the root `pom.xml` and
  README, and the printed summary are not modelled. They are text
  templates and I/O.
- Generator.RunCounts: a raising module block is modelled only as a
  failing directory creation or as something raising after the directory
  was listed. Failures writing the stub, the test class or `verify.sh` are
  not modelled. Neither are the `verify.sh` existence check and `chmod`.
- Generator.RunWithoutFaults: whether `make_readme` raises on an entry's
  data is not derived from the entry. It raises on a null or non-text
  `topics` (the `join` at line 228), and on a null `learning_objectives` or
  `acceptance_criteria` (the loops at lines 240 and 243). Such an entry is
  listed, skipped and recorded as a failed module even when every file
  operation succeeds; the model covers it only as a `RaisesAfterMkdir`
  outcome given by the caller.
- Generator.RunCounts: states a lower bound on the error list. It does not
  give the list in full.
- YAML loading, the missing input file, the missing PyYAML exit, and the
  current directory are not modelled.
- `textwrap.dedent` is modelled only as it applies to the two templates:
  the fixed indentation is removed, and a line left with only indentation
  becomes empty. Interpolated values are assumed to hold no line break. An
  `entry_class` holding one would put text at column 0, and `dedent` would
  then keep all the indentation, which the model still removes.
- `entry_class` is never validated by the generator. The model carries it
  as given.
- Generator.PlanItem: `title`, `entry_class` and `method_signature` are
  modelled as text, or absent. YAML can give other values. An empty
  `title:` loads as `None`, and `title: 2048` loads as an int. Then
  `slugify(title)` raises at line 276. That call comes before the `try` at
  line 279, so the exception ends the whole run, and nothing more is
  written, the root `pom.xml` included. A signature that is not text raises
  inside the parse `try` and gets the fallback like any parse error. An
  entry class that is not text is printed into the file name as `str` would.
- Literals.StringLiteralRoundTrip: `java_literal` escapes only `\` and
  `"`, so a string holding a line break renders to a literal that Java
  rejects. `Unescape` reads raw characters as themselves, and it does not
  flag this.

## Findings

| source | as written | input that shows it | evidently intended | confidence | as-written member | corrected member |
|---|---|---|---|---|---|---|
| generate-exercises.py:167-168 | `float` shares the `double` row of the default-return table, so the stub says `return 0.0;` | a code entry with `method_signature: "float f()"` | `return 0.0f;`: a double constant does not narrow to `float` in a Java assignment context, so the stub does not compile | high; not executed | Stubs.FloatDefaultAsWrittenFails | Stubs.CorrectedStubCompiles |

`Generator` writes the stub as written (`Stubs.SolutionLines`), so the
modelled output is what the program writes. The corrected stub
(`Stubs.CorrectedSolutionLines`) differs from it only in the body line for
`float`, and `Stubs.CorrectedStubCompiles` proves it compiles for every
known return type.

=== FILE: decimal.dfy ===
/** Decimal text of integers: Python's `str(int)` and a reader for the same
    notation, so that the rendering can be shown to lose nothing. */
module Decimal {
  import opened Results
  import opened Text

  function DigitChar(d: nat): (c: char)
    requires d < 10
    ensures IsDigit(c)
  {
    ('0' as int + d) as char
  }

  function DigitValue(c: char): (d: nat)
    requires IsDigit(c)
    ensures d < 10
  {
    c as int - '0' as int
  }

  predicate AllDigits(s: string) {
    forall i :: 0 <= i < |s| ==> IsDigit(s[i])
  }

  /** Digits of `n`, most significant first, without leading zeros. */
  function NatToDigits(n: nat): (r: string)
    ensures r != [] && AllDigits(r)
    ensures |r| > 1 ==> r[0] != '0'
  {
    if n < 10 then [DigitChar(n)] else NatToDigits(n / 10) + [DigitChar(n % 10)]
  }

  /** `str(i)`: an optional minus sign followed by the digits of `|i|`. */
  function IntToText(i: int): (r: string)
    ensures r != []
    ensures forall k :: 0 <= k < |r| ==> IsDigit(r[k]) || (k == 0 && r[k] == '-')
  {
    if i < 0 then "-" + NatToDigits(-i) else NatToDigits(i)
  }

  /** The number a string of decimal digits denotes. */
  function DigitsValue(s: string): nat
    requires AllDigits(s)
  {
    if s == [] then 0 else DigitsValue(s[..|s| - 1]) * 10 + DigitValue(s[|s| - 1])
  }

  /** Reads an optionally negative decimal integer such as `-12` or `7`. */
  function ReadInt(s: string): Option<int> {
    if |s| >= 2 && s[0] == '-' && AllDigits(s[1..]) then Some(-(DigitsValue(s[1..]) as int))
    else if s != [] && AllDigits(s) then Some(DigitsValue(s))
    else None
  }

  lemma {:induction false} DigitsRoundTrip(n: nat)
    ensures DigitsValue(NatToDigits(n)) == n
  {
    if n >= 10 {
      var r := NatToDigits(n);
      assert r[..|r| - 1] == NatToDigits(n / 10);
      DigitsRoundTrip(n / 10);
    }
  }

  /** Reading the text `str(i)` gives back `i`. */
  lemma IntTextRoundTrip(i: int)
    ensures ReadInt(IntToText(i)) == Some(i)
  {
    if i < 0 {
      var r := IntToText(i);
      assert r[1..] == NatToDigits(-i);
      DigitsRoundTrip(-i);
    } else {
      DigitsRoundTrip(i);
    }
  }
}

=== FILE: generator.dfy ===
/** The per-entry policy of `main`: which module an entry of
    `exercises.yml` becomes, what is filled in when fields are missing, what
    is recorded as an error, and which files are produced. File writes are
    abstracted to the outcome the generator observes. */
module Generator {
  import opened Results
  import opened Text
  import opened Identifiers
  import opened Signatures
  import opened Stubs
  import opened TestClasses

  /** An entry of `exercises.yml`, with the fields the generator reads. An
      absent field is `None`; `id` holds the text `str(id)` gives. An absent
      or empty `test_cases` is the empty list. */
  datatype Item = Item(
    id: Option<string>,
    title: Option<string>,
    kind: Option<string>,
    entryClass: Option<string>,
    signature: Option<string>,
    testCases: seq<TestCase>)

  /** Messages that are only printed. */
  datatype Notice =
    | MissingType
    | AutoEntryClass(entry: string)
    | AutoSignature(sig: string)
    | NoTestCases

  /** Messages appended to the error list reported at the end. */
  datatype ItemError =
    | BadSignature(id: string, title: string, parseError: SignatureError)
    | TestsSkipped(id: string, title: string, renderError: TestError)
    | ModuleFailed(id: string, title: string)

  /** The Java side of a code module: the package, the entry class, the
      signature its stub declares, and whether a test class is written. The
      stub, always written, is `SolutionClass` of its package, entry class
      and signature; the test class, when written, is `TestFile` of it. */
  datatype CodeModule = CodeModule(
    package: string,
    entry: string,
    sig: Signature,
    writesTests: bool)

  /** Everything one entry produces when nothing in its module block
      raises. */
  datatype ItemPlan = ItemPlan(
    slug: string,
    kind: string,
    code: Option<CodeModule>,
    notices: seq<Notice>,
    errors: seq<ItemError>)

  const PackageBase: string := "org.javamastery"
  const DefaultSignature: string := "void run()"

  /** Python's `not x` for an optional text field. */
  predicate Falsy(x: Option<string>) {
    x.None? || x.value == []
  }

  function IdText(item: Item): string {
    match item.id
    case None => "<no-id>"
    case Some(i) => i
  }

  function TitleText(item: Item): string {
    match item.title
    case None => "<no-title>"
    case Some(t) => t
  }

  /** The module directory name: the id, `_`, and the slug of the title. */
  function Slug(item: Item): string {
    IdText(item) + "_" + Slugify(TitleText(item))
  }

  function Kind(item: Item): string {
    match item.kind
    case None => "env"
    case Some(k) => k
  }

  function Package(item: Item): string {
    PackageBase + ".ex" + IdText(item)
  }

  function EntryClass(item: Item): string {
    if Falsy(item.entryClass) then TitleToClassName(TitleText(item)) else item.entryClass.value
  }

  function SignatureText(item: Item): string {
    if Falsy(item.signature) then DefaultSignature else item.signature.value
  }

  /** The signature the stub declares: the parsed one, or `void run()`
      when parsing fails. */
  function StubSignature(text: string): Signature {
    match ParseSignature(text)
    case Ok(sig) => sig
    case Err(_) => Signature("void", "run", [])
  }

  function FillNotices(item: Item): seq<Notice> {
    (if Falsy(item.entryClass) then [AutoEntryClass(EntryClass(item))] else [])
    + (if Falsy(item.signature) then [AutoSignature(DefaultSignature)] else [])
  }

  function SignatureErrors(item: Item): seq<ItemError> {
    match ParseSignature(SignatureText(item))
    case Ok(_) => []
    case Err(e) => [BadSignature(IdText(item), TitleText(item), e)]
  }

  /** `render_test_class` for the entry, under the signature the stub
      declares. */
  function TestRender(item: Item): Result<string, TestError> {
    var sig := StubSignature(SignatureText(item));
    RenderTestClass(Package(item), EntryClass(item), item.testCases, sig.ret, sig.name, |sig.params|)
  }

  /** A test class is written when there are cases and they render. */
  function WritesTests(item: Item): bool {
    item.testCases != [] && TestRender(item).Ok?
  }

  function TestErrors(item: Item): seq<ItemError> {
    if item.testCases == [] then []
    else
      match TestRender(item)
      case Ok(_) => []
      case Err(e) => [TestsSkipped(IdText(item), TitleText(item), e)]
  }

  function CodeModuleOf(item: Item): CodeModule {
    CodeModule(Package(item), EntryClass(item), StubSignature(SignatureText(item)), WritesTests(item))
  }

  /** The test class's text, for the entry's cases. */
  function TestFile(c: CodeModule, cases: seq<TestCase>): Result<string, TestError> {
    RenderTestClass(c.package, c.entry, cases, c.sig.ret, c.sig.name, |c.sig.params|)
  }

  /** The messages printed for an entry, in order. */
  function Notices(item: Item): seq<Notice> {
    (if item.kind.None? then [MissingType] else [])
    + if Kind(item) != "code" then []
      else FillNotices(item) + (if item.testCases == [] then [NoTestCases] else [])
  }

  /** The errors recorded for an entry, in order. */
  function ItemErrors(item: Item): seq<ItemError> {
    if Kind(item) == "code" then SignatureErrors(item) + TestErrors(item) else []
  }

  /** The body of the loop in `main` for one entry, all writes succeeding. */
  function PlanItem(item: Item): ItemPlan {
    ItemPlan(Slug(item), Kind(item),
             if Kind(item) == "code" then Some(CodeModuleOf(item)) else None,
             Notices(item), ItemErrors(item))
  }

  // ---------------------------------------------------------------------
  // Properties of the per-entry policy
  // ---------------------------------------------------------------------

  /** A missing type means `env`, with a warning; only `code` entries get
      Java sources, and other entries record no errors. */
  lemma PlanKind(item: Item)
    ensures var p := PlanItem(item);
      && (item.kind.None? <==> (|p.notices| > 0 && p.notices[0] == MissingType))
      && (item.kind.None? ==> p.kind == "env" && p.code.None?)
      && (p.code.Some? <==> item.kind == Some("code"))
      && (p.code.Some? ==> p.code.value == CodeModuleOf(item))
      && (p.code.None? ==> p.errors == [])
  {
    assert FillNotices(item) == [] || FillNotices(item)[0] != MissingType;
  }

  /** `void run()` is itself what the parser makes of the default text, so
      the fallback and the auto-filled signature agree. */
  lemma DefaultSignatureParses()
    ensures ParseSignature(DefaultSignature) == Ok(Signature("void", "run", []))
  {
    var sig := Signature("void", "run", []);
    assert FormatParams([]) == "";
    assert FormatSignature(sig) == DefaultSignature;
    FallbackWellFormed();
  }

  /** The stub always declares a signature that survives formatting and
      re-parsing: the parsed one, or the fallback after a parse error, which
      is recorded. */
  lemma StubSignatureWellFormed(text: string)
    ensures WellFormed(StubSignature(text))
    ensures ParseSignature(FormatSignature(StubSignature(text))) == Ok(StubSignature(text))
    ensures ParseSignature(text).Err? ==> StubSignature(text) == Signature("void", "run", [])
  {
    if ParseSignature(text).Ok? {
      assert StubSignature(text) == ParseSignature(text).value;
      ParsedIsWellFormed(text);
    } else {
      FallbackWellFormed();
    }
  }

  lemma FallbackWellFormed()
    ensures WellFormed(Signature("void", "run", []))
    ensures ParseSignature(FormatSignature(Signature("void", "run", []))) == Ok(Signature("void", "run", []))
  {
    assert IsToken("void");
    assert IsIdentifier("run");
    FormatThenParse(Signature("void", "run", []));
  }

  /** The auto-filled values: the entry class from the title, which is a
      Java identifier, and the default signature; each is announced. */
  lemma PlanFillsIn(item: Item)
    requires item.kind == Some("code")
    ensures var c := CodeModuleOf(item);
      && (Falsy(item.entryClass) ==> c.entry == TitleToClassName(TitleText(item)) && AutoEntryClass(c.entry) in Notices(item))
      && (!Falsy(item.entryClass) ==> c.entry == item.entryClass.value)
      && (Falsy(item.signature) ==> c.sig == Signature("void", "run", []) && AutoSignature(DefaultSignature) in Notices(item))
      && (Falsy(item.entryClass) ==> IsIdentifier(c.entry))
  {
    if Falsy(item.signature) {
      DefaultSignatureParses();
    }
  }

  /** A code entry's signature: the parsed one, or the fallback with the
      parse error recorded. */
  lemma PlanSignature(item: Item)
    requires item.kind == Some("code")
    ensures var parsed := ParseSignature(SignatureText(item));
      var errors := ItemErrors(item);
      && (parsed.Ok? ==> CodeModuleOf(item).sig == parsed.value)
      && (parsed.Err? ==> CodeModuleOf(item).sig == Signature("void", "run", []))
      && (parsed.Err? <==> |errors| > 0 && errors[0].BadSignature?)
      && (parsed.Err? ==> errors[0] == BadSignature(IdText(item), TitleText(item), parsed.error))
  {
    TestClassRenders(item);
  }

  /** The stub is always written, and its declaration line reads back as
      the signature the plan carries. */
  lemma PlanStubDeclares(item: Item)
    requires item.kind == Some("code")
    ensures var c := CodeModuleOf(item);
      var lines := SolutionLines(c.package, c.entry, c.sig);
      var head := "    public static ";
      && |lines[3]| >= |head| + 2
      && lines[3][..|head|] == head
      && ParseSignature(lines[3][|head|..|lines[3]| - 2]) == Ok(c.sig)
  {
    var c := CodeModuleOf(item);
    StubSignatureWellFormed(SignatureText(item));
    StubDeclaresSignature(c.package, c.entry, c.sig);
  }

  /** A test class is written exactly when there are cases and every case
      renders; with no cases there is only a notice, and a render failure
      is recorded as a skipped test class. */
  lemma PlanTests(item: Item)
    requires item.kind == Some("code")
    ensures var c := CodeModuleOf(item);
      var errors := ItemErrors(item);
      && (c.writesTests <==> item.testCases != [] && CasesRender(item))
      && (c.writesTests ==> TestFile(c, item.testCases).Ok?)
      && (NoTestCases in Notices(item) <==> item.testCases == [])
      && (|errors| > 0 && errors[|errors| - 1].TestsSkipped? <==> item.testCases != [] && !CasesRender(item))
  {
    assert NoTestCases !in FillNotices(item);
    TestClassRenders(item);
  }

  /** Whether the entry's test cases all render under the stub's
      signature. */
  predicate CasesRender(item: Item) {
    var sig := StubSignature(SignatureText(item));
    forall k :: 0 <= k < |item.testCases| ==> CaseRenders(sig.ret, |sig.params|, item.testCases[k])
  }

  lemma TestRenderOk(item: Item)
    ensures TestRender(item).Ok? <==> CasesRender(item)
  {
    var sig := StubSignature(SignatureText(item));
    RenderTestClassOk(Package(item), EntryClass(item), item.testCases, sig.ret, sig.name, |sig.params|);
  }

  lemma TestClassRenders(item: Item)
    ensures WritesTests(item) <==> item.testCases != [] && CasesRender(item)
    ensures TestErrors(item) != [] <==> item.testCases != [] && !CasesRender(item)
    ensures |TestErrors(item)| <= 1
    ensures TestErrors(item) != [] ==> TestErrors(item)[0].TestsSkipped?
  {
    TestRenderOk(item);
  }

  // ---------------------------------------------------------------------
  // The loop over all entries, with module blocks that may raise
  // ---------------------------------------------------------------------

  /** How the module block of one entry ends: nothing raises, creating the
      module directory raises, or something raises after the directory was
      created and listed. The last covers a failing `pom.xml` or
      `README.md` write and also `make_readme` raising on the entry's own
      data (a null or non-text `topics`, a null `learning_objectives` or
      `acceptance_criteria`). */
  datatype Fault = NoFault | MkdirFails | RaisesAfterMkdir

  datatype Skipped = Skipped(id: string, title: string)

  /** The lists `main` reports at the end. */
  datatype Summary = Summary(modules: seq<string>, errors: seq<ItemError>, skipped: seq<Skipped>)

  function ModulePath(item: Item): string {
    "exercises/" + Slug(item)
  }

  /** The modules listed, in entry order. A module is listed as soon as
      its directory exists, before its files are written. */
  function Modules(items: seq<Item>, faults: seq<Fault>): seq<string>
    requires |items| == |faults|
  {
    if items == [] then []
    else
      var n := |items| - 1;
      Modules(items[..n], faults[..n]) + (if faults[n] != MkdirFails then [ModulePath(items[n])] else [])
  }

  /** The entries skipped because their module block raised. */
  function SkippedItems(items: seq<Item>, faults: seq<Fault>): seq<Skipped>
    requires |items| == |faults|
  {
    if items == [] then []
    else
      var n := |items| - 1;
      SkippedItems(items[..n], faults[..n]) + (if faults[n] != NoFault then [Skipped(IdText(items[n]), TitleText(items[n]))] else [])
  }

  /** The error list: an entry whose module block does not raise
      contributes its plan's errors, one whose block raises contributes that
      failure. */
  function Errors(items: seq<Item>, faults: seq<Fault>): seq<ItemError>
    requires |items| == |faults|
  {
    if items == [] then []
    else
      var n := |items| - 1;
      Errors(items[..n], faults[..n])
      + (if faults[n] == NoFault then PlanItem(items[n]).errors else [ModuleFailed(IdText(items[n]), TitleText(items[n]))])
  }

  /** The loop over the entries, `faults[k]` being how the module block of
      `items[k]` ends. */
  function Run(items: seq<Item>, faults: seq<Fault>): Summary
    requires |items| == |faults|
  {
    Summary(Modules(items, faults), Errors(items, faults), SkippedItems(items, faults))
  }

  function CountMkdirOk(faults: seq<Fault>): nat {
    if faults == [] then 0
    else CountMkdirOk(faults[..|faults| - 1]) + (if faults[|faults| - 1] != MkdirFails then 1 else 0)
  }

  function CountFailed(faults: seq<Fault>): nat {
    if faults == [] then 0
    else CountFailed(faults[..|faults| - 1]) + (if faults[|faults| - 1] != NoFault then 1 else 0)
  }

  /** Every entry whose directory was created is listed as a module, and
      every entry whose module block raised is listed as skipped and has an
      error. */
  lemma {:induction false} RunCounts(items: seq<Item>, faults: seq<Fault>)
    requires |items| == |faults|
    ensures |Modules(items, faults)| == CountMkdirOk(faults)
    ensures |SkippedItems(items, faults)| == CountFailed(faults)
    ensures CountFailed(faults) <= |Errors(items, faults)|
  {
    if items != [] {
      var n := |items| - 1;
      RunCounts(items[..n], faults[..n]);
    }
  }

  /** An entry whose directory was created is listed as a module; if its
      block raises later it is also listed as skipped. */
  lemma {:induction false} RunModules(items: seq<Item>, faults: seq<Fault>, k: nat)
    requires |items| == |faults| && k < |items|
    requires faults[k] != MkdirFails
    ensures ModulePath(items[k]) in Modules(items, faults)
    ensures faults[k] == RaisesAfterMkdir ==> Skipped(IdText(items[k]), TitleText(items[k])) in SkippedItems(items, faults)
  {
    var n := |items| - 1;
    if k < n {
      RunModules(items[..n], faults[..n], k);
      assert items[..n][k] == items[k];
    }
  }

  /** The module path of every entry, in order. */
  function ModulePaths(items: seq<Item>): (r: seq<string>)
    ensures |r| == |items|
  {
    if items == [] then [] else ModulePaths(items[..|items| - 1]) + [ModulePath(items[|items| - 1])]
  }

  /** When no module block raises, every entry is a module, in entry
      order, and nothing is skipped. */
  lemma RunWithoutFaults(items: seq<Item>, faults: seq<Fault>)
    requires |items| == |faults|
    requires forall k :: 0 <= k < |faults| ==> faults[k] == NoFault
    ensures Run(items, faults).modules == ModulePaths(items)
    ensures Run(items, faults).skipped == []
  {
    ListsWithoutFaults(items, faults);
  }

  lemma {:induction false} ListsWithoutFaults(items: seq<Item>, faults: seq<Fault>)
    requires |items| == |faults|
    requires forall k :: 0 <= k < |faults| ==> faults[k] == NoFault
    ensures Modules(items, faults) == ModulePaths(items)
    ensures SkippedItems(items, faults) == []
  {
    if items != [] {
      var n := |items| - 1;
      assert faults[n] == NoFault;
      assert forall k :: 0 <= k < n ==> faults[..n][k] == faults[k];
      ListsWithoutFaults(items[..n], faults[..n]);
    }
  }
}

=== FILE: identifiers.dfy ===
/** The two identifier normalisers of generate-exercises.py: `slugify`, which
    names a module directory after an exercise title, and
    `title_to_classname`, which invents an entry class when none is given. */
module Identifiers {
  import opened Text

  // ---------------------------------------------------------------------
  // slugify
  // ---------------------------------------------------------------------

  /** The class `[\w\s-]`: what survives the first substitution. */
  predicate IsSlugInput(c: char) {
    IsWordChar(c) || IsSpace(c) || c == '-'
  }

  /** The class `[\s_]`, whose runs become one hyphen. */
  predicate IsSeparator(c: char) {
    IsSpace(c) || c == '_'
  }

  /** What a slug is made of: lower-case letters, digits and hyphens. */
  predicate IsSlugChar(c: char) {
    IsLower(c) || IsDigit(c) || c == '-'
  }

  predicate IsNotUpper(c: char) {
    !IsUpper(c)
  }

  /** A character that may reach the separator-collapsing step. */
  predicate IsLoweredSlugInput(c: char) {
    IsSlugInput(c) && !IsUpper(c)
  }

  /** `re.sub(r"[\s_]+", "-", s)`: every maximal run of separators becomes
      a single hyphen; every other character is kept. */
  function CollapseSeparators(s: string): (r: string)
    ensures forall i :: 0 <= i < |r| ==> !IsSeparator(r[i])
    decreases |s|
  {
    if s == [] then []
    else if IsSeparator(s[0]) then
      var n := SpanOf(s, IsSeparator);
      "-" + CollapseSeparators(s[n..])
    else [s[0]] + CollapseSeparators(s[1..])
  }

  lemma {:induction false} CollapseInherits(s: string)
    requires forall i :: 0 <= i < |s| ==> IsLoweredSlugInput(s[i])
    ensures forall i :: 0 <= i < |CollapseSeparators(s)| ==> IsSlugChar(CollapseSeparators(s)[i])
    decreases |s|
  {
    if s != [] {
      if IsSeparator(s[0]) {
        var n := SpanOf(s, IsSeparator);
        assert forall i :: 0 <= i < |s[n..]| ==> s[n..][i] == s[n + i];
        CollapseInherits(s[n..]);
      } else {
        CollapseInherits(s[1..]);
      }
    }
  }

  /** `s.lstrip("-")`: what follows the leading hyphens. */
  function DropLeadingDashes(s: string): (r: string)
    ensures |r| <= |s|
    ensures r == [] || r[0] != '-'
  {
    if s != [] && s[0] == '-' then DropLeadingDashes(s[1..]) else s
  }

  /** `s.rstrip("-")`: what precedes the trailing hyphens. */
  function DropTrailingDashes(s: string): (r: string)
    ensures r <= s
    ensures r == [] || r[|r| - 1] != '-'
  {
    if s != [] && s[|s| - 1] == '-' then DropTrailingDashes(s[..|s| - 1]) else s
  }

  /** `s.strip("-")`: the part of `s` between its leading and trailing
      hyphens. */
  function StripDashes(s: string): (r: string)
    ensures r == [] || (r[0] != '-' && r[|r| - 1] != '-')
  {
    var t := DropLeadingDashes(s);
    var r := DropTrailingDashes(t);
    assert r != [] ==> r[0] == t[0];
    r
  }

  /** `lstrip` removes a run of hyphens and nothing else. */
  lemma {:induction false} DropLeadingShape(s: string)
    ensures DropLeadingDashes(s) == s[|s| - |DropLeadingDashes(s)|..]
    ensures forall i :: 0 <= i < |s| - |DropLeadingDashes(s)| ==> s[i] == '-'
    decreases |s|
  {
    if s != [] && s[0] == '-' {
      DropLeadingShape(s[1..]);
      var k := |s| - |DropLeadingDashes(s)|;
      assert s[1..][k - 1..] == s[k..];
      forall i | 0 <= i < k
        ensures s[i] == '-'
      {
        if i > 0 {
          assert s[i] == s[1..][i - 1];
        }
      }
    }
  }

  /** `rstrip` removes a run of hyphens and nothing else. */
  lemma {:induction false} DropTrailingShape(s: string)
    ensures forall i :: |DropTrailingDashes(s)| <= i < |s| ==> s[i] == '-'
    decreases |s|
  {
    if s != [] && s[|s| - 1] == '-' {
      DropTrailingShape(s[..|s| - 1]);
      forall i | |DropTrailingDashes(s)| <= i < |s|
        ensures s[i] == '-'
      {
        if i < |s| - 1 {
          assert s[i] == s[..|s| - 1][i];
        }
      }
    }
  }

  /** `s[n..m]` is flanked by hyphens only. */
  predicate DashPadded(s: string, n: int, m: int) {
    && 0 <= n <= m <= |s|
    && (forall i :: 0 <= i < n ==> s[i] == '-')
    && (forall i :: m <= i < |s| ==> s[i] == '-')
  }

  lemma DashFlanks(s: string, t: string, r: string)
    requires |t| <= |s| && t == s[|s| - |t|..]
    requires |r| <= |t| && forall i :: |r| <= i < |t| ==> t[i] == '-'
    ensures forall i :: |s| - |t| + |r| <= i < |s| ==> s[i] == '-'
  {
    var n := |s| - |t|;
    forall i | n + |r| <= i < |s|
      ensures s[i] == '-'
    {
      assert s[i] == t[i - n];
    }
  }

  /** Hyphen stripping only drops characters: a string of slug characters
      stays one. */
  lemma StripDashesInherits(s: string)
    requires forall i :: 0 <= i < |s| ==> IsSlugChar(s[i])
    ensures forall i :: 0 <= i < |StripDashes(s)| ==> IsSlugChar(StripDashes(s)[i])
  {
    DropLeadingInherits(s);
    DropTrailingInherits(DropLeadingDashes(s));
  }

  lemma {:induction false} DropLeadingInherits(s: string)
    requires forall i :: 0 <= i < |s| ==> IsSlugChar(s[i])
    ensures forall i :: 0 <= i < |DropLeadingDashes(s)| ==> IsSlugChar(DropLeadingDashes(s)[i])
    decreases |s|
  {
    if s != [] && s[0] == '-' {
      DropLeadingInherits(s[1..]);
    }
  }

  lemma {:induction false} DropTrailingInherits(s: string)
    requires forall i :: 0 <= i < |s| ==> IsSlugChar(s[i])
    ensures forall i :: 0 <= i < |DropTrailingDashes(s)| ==> IsSlugChar(DropTrailingDashes(s)[i])
    decreases |s|
  {
    if s != [] && s[|s| - 1] == '-' {
      DropTrailingInherits(s[..|s| - 1]);
    }
  }

  /** `StripDashes` only removes characters at both ends: `s` is the result
      with a run of hyphens on either side. */
  lemma StripDashesSplit(s: string) returns (n: int, m: int)
    ensures DashPadded(s, n, m) && StripDashes(s) == s[n..m]
  {
    var t := DropLeadingDashes(s);
    var r := DropTrailingDashes(t);
    n, m := |s| - |t|, |s| - |t| + |r|;
    DropLeadingShape(s);
    DropTrailingShape(t);
    DashFlanks(s, t, r);
    assert r == s[n..][..|r|];
  }

  /** `slugify(text)`: lower-case, drop everything outside `[\w\s-]`,
      turn separator runs into hyphens, trim hyphens at both ends. The slug
      has no whitespace and no underscore, and never starts or ends with a
      hyphen. */
  function Slugify(text: string): (r: string)
    ensures forall i :: 0 <= i < |r| ==> IsSlugChar(r[i])
    ensures r == [] || (r[0] != '-' && r[|r| - 1] != '-')
  {
    var collapsed := Collapsed(text);
    CollapsedIsSlugShaped(text);
    StripDashesInherits(collapsed);
    StripDashes(collapsed)
  }

  /** The first three steps of `slugify`. */
  function Collapsed(text: string): string {
    CollapseSeparators(Keep(Lower(text), IsSlugInput))
  }

  lemma CollapsedIsSlugShaped(text: string)
    ensures forall i :: 0 <= i < |Collapsed(text)| ==> IsSlugChar(Collapsed(text)[i])
  {
    var lowered := Lower(text);
    var kept := Keep(lowered, IsSlugInput);
    assert forall i :: 0 <= i < |lowered| ==> IsNotUpper(lowered[i]);
    KeepInherits(lowered, IsSlugInput, IsNotUpper);
    forall i | 0 <= i < |kept|
      ensures IsLoweredSlugInput(kept[i])
    {
      assert IsSlugInput(kept[i]);
      assert IsNotUpper(kept[i]);
    }
    CollapseInherits(kept);
  }

  lemma {:induction false} KeepLower(s: string)
    ensures Keep(Lower(s), IsAlnum) == Lower(Keep(s, IsAlnum))
    decreases |s|
  {
    if s != [] {
      assert Lower(s)[1..] == Lower(s[1..]);
      KeepLower(s[1..]);
    }
  }

  lemma {:induction false} KeepSlugInputAlnum(s: string)
    ensures Keep(Keep(s, IsSlugInput), IsAlnum) == Keep(s, IsAlnum)
    decreases |s|
  {
    if s != [] {
      KeepSlugInputAlnum(s[1..]);
    }
  }

  lemma {:induction false} KeepCollapse(s: string)
    ensures Keep(CollapseSeparators(s), IsAlnum) == Keep(s, IsAlnum)
    decreases |s|
  {
    if s != [] {
      if IsSeparator(s[0]) {
        var n := SpanOf(s, IsSeparator);
        KeepNone(s[..n], IsAlnum);
        assert s == s[..n] + s[n..];
        KeepConcat(s[..n], s[n..], IsAlnum);
        KeepCollapse(s[n..]);
      } else {
        KeepCollapse(s[1..]);
      }
    }
  }

  lemma {:induction false} KeepDropLeading(s: string)
    ensures Keep(DropLeadingDashes(s), IsAlnum) == Keep(s, IsAlnum)
    decreases |s|
  {
    if s != [] && s[0] == '-' {
      KeepDropLeading(s[1..]);
    }
  }

  lemma {:induction false} KeepDropTrailing(s: string)
    ensures Keep(DropTrailingDashes(s), IsAlnum) == Keep(s, IsAlnum)
    decreases |s|
  {
    if s != [] && s[|s| - 1] == '-' {
      var front := s[..|s| - 1];
      KeepDropTrailing(front);
      assert s == front + [s[|s| - 1]];
      KeepConcat(front, [s[|s| - 1]], IsAlnum);
    }
  }

  lemma KeepStripDashes(s: string)
    ensures Keep(StripDashes(s), IsAlnum) == Keep(s, IsAlnum)
  {
    KeepDropLeading(s);
    KeepDropTrailing(DropLeadingDashes(s));
  }

  /** The letters and digits of a slug are exactly those of the title,
      lower-cased and in the same order: slugify only drops punctuation and
      rewrites separators. */
  lemma SlugKeepsAlnums(text: string)
    ensures Keep(Slugify(text), IsAlnum) == Lower(Keep(text, IsAlnum))
  {
    var kept := Keep(Lower(text), IsSlugInput);
    KeepStripDashes(CollapseSeparators(kept));
    KeepCollapse(kept);
    KeepSlugInputAlnum(Lower(text));
    KeepLower(text);
  }

  lemma {:induction false} CollapseNoSeparators(s: string)
    requires forall i :: 0 <= i < |s| ==> !IsSeparator(s[i])
    ensures CollapseSeparators(s) == s
    decreases |s|
  {
    if s != [] {
      CollapseNoSeparators(s[1..]);
    }
  }

  /** A leading run of separators becomes one hyphen. */
  lemma CollapseLeadingRun(r: string, t: string)
    requires r != [] && forall i :: 0 <= i < |r| ==> IsSeparator(r[i])
    requires t == [] || !IsSeparator(t[0])
    ensures CollapseSeparators(r + t) == "-" + CollapseSeparators(t)
  {
    SpanOfRun(r, t, IsSeparator);
    assert (r + t)[|r|..] == t;
  }

  /** A leading character that is not a separator is kept. */
  lemma CollapseLeadingChar(c: char, t: string)
    requires !IsSeparator(c)
    ensures CollapseSeparators([c] + t) == [c] + CollapseSeparators(t)
  {
    assert ([c] + t)[1..] == t;
  }

  /** A maximal run of separators, however long, becomes exactly one
      hyphen, and the text on either side of it is collapsed on its own. */
  lemma {:induction false} CollapseRun(a: string, w: string, b: string)
    requires w != [] && forall i :: 0 <= i < |w| ==> IsSeparator(w[i])
    requires a == [] || !IsSeparator(a[|a| - 1])
    requires b == [] || !IsSeparator(b[0])
    ensures CollapseSeparators(a + w + b) == CollapseSeparators(a) + "-" + CollapseSeparators(b)
    decreases |a|, 1
  {
    if a == [] {
      assert a + w + b == w + b;
      CollapseLeadingRun(w, b);
    } else if IsSeparator(a[0]) {
      CollapseRunAfterRun(a, w, b);
    } else {
      CollapseRunAfterChar(a, w, b);
    }
  }

  /** CollapseRun when the text before the run itself starts with a run. */
  lemma {:induction false} CollapseRunAfterRun(a: string, w: string, b: string)
    requires w != [] && forall i :: 0 <= i < |w| ==> IsSeparator(w[i])
    requires a != [] && IsSeparator(a[0]) && !IsSeparator(a[|a| - 1])
    requires b == [] || !IsSeparator(b[0])
    ensures CollapseSeparators(a + w + b) == CollapseSeparators(a) + "-" + CollapseSeparators(b)
    decreases |a|, 0
  {
    var n := CutLeadingRun(a, w, b);
    CollapseRun(a[n..], w, b);
    var cr, cb := CollapseSeparators(a[n..]), CollapseSeparators(b);
    assert "-" + (cr + "-" + cb) == ("-" + cr) + "-" + cb;
  }

  /** The leading run of `a` collapses alike in `a` and in `a + w + b`. */
  lemma CutLeadingRun(a: string, w: string, b: string) returns (n: nat)
    requires a != [] && IsSeparator(a[0]) && !IsSeparator(a[|a| - 1])
    ensures 0 < n < |a|
    ensures CollapseSeparators(a + w + b) == "-" + CollapseSeparators(a[n..] + w + b)
    ensures CollapseSeparators(a) == "-" + CollapseSeparators(a[n..])
  {
    n := SpanOf(a, IsSeparator);
    Regroup(a, w, b, n);
    assert a[n..][0] == a[n];
    CollapseLeadingRun(a[..n], a[n..] + w + b);
    CollapseLeadingRun(a[..n], a[n..]);
  }

  /** CollapseRun when the text before the run starts with a kept character. */
  lemma {:induction false} CollapseRunAfterChar(a: string, w: string, b: string)
    requires w != [] && forall i :: 0 <= i < |w| ==> IsSeparator(w[i])
    requires a != [] && !IsSeparator(a[0]) && !IsSeparator(a[|a| - 1])
    requires b == [] || !IsSeparator(b[0])
    ensures CollapseSeparators(a + w + b) == CollapseSeparators(a) + "-" + CollapseSeparators(b)
    decreases |a|, 0
  {
    CutLeadingChar(a, w, b);
    CollapseRun(a[1..], w, b);
    var cr, cb := CollapseSeparators(a[1..]), CollapseSeparators(b);
    assert [a[0]] + (cr + "-" + cb) == ([a[0]] + cr) + "-" + cb;
  }

  /** A kept first character of `a` stays first in `a` and in `a + w + b`. */
  lemma CutLeadingChar(a: string, w: string, b: string)
    requires a != [] && !IsSeparator(a[0])
    ensures CollapseSeparators(a + w + b) == [a[0]] + CollapseSeparators(a[1..] + w + b)
    ensures CollapseSeparators(a) == [a[0]] + CollapseSeparators(a[1..])
  {
    Regroup(a, w, b, 1);
    assert a[..1] == [a[0]];
    CollapseLeadingChar(a[0], a[1..] + w + b);
    CollapseLeadingChar(a[0], a[1..]);
  }

  /** A word of a slug: lower-case letters and digits. */
  predicate IsSlugWord(s: string) {
    s != [] && forall i :: 0 <= i < |s| ==> IsLower(s[i]) || IsDigit(s[i])
  }

  /** Words joined by one separator run collapse to the words joined by
      hyphens. */
  lemma {:induction false} CollapseJoin(ws: seq<string>, w: string)
    requires forall k :: 0 <= k < |ws| ==> IsSlugWord(ws[k])
    requires w != [] && forall i :: 0 <= i < |w| ==> IsSeparator(w[i])
    ensures CollapseSeparators(JoinWith(w, ws)) == JoinWith("-", ws)
    decreases |ws|
  {
    if |ws| == 1 {
      CollapseNoSeparators(ws[0]);
    } else if |ws| > 1 {
      var rest := JoinWith(w, ws[1..]);
      JoinWithEnds(w, ws[1..]);
      CollapseRun(ws[0], w, rest);
      CollapseNoSeparators(ws[0]);
      CollapseJoin(ws[1..], w);
    }
  }

  /** `slugify` of words separated by one run of whitespace or underscores
      is the words joined by single hyphens. */
  lemma SlugOfWords(ws: seq<string>, w: string)
    requires forall k :: 0 <= k < |ws| ==> IsSlugWord(ws[k])
    requires w != [] && forall i :: 0 <= i < |w| ==> IsSeparator(w[i])
    ensures Slugify(JoinWith(w, ws)) == JoinWith("-", ws)
  {
    CollapsedWords(ws, w);
    if ws != [] {
      JoinWithEnds("-", ws);
    }
    StripDashesNone(JoinWith("-", ws));
  }

  /** Words and separators pass lower-casing and filtering unchanged, so
      only the runs are rewritten. */
  lemma CollapsedWords(ws: seq<string>, w: string)
    requires forall k :: 0 <= k < |ws| ==> IsSlugWord(ws[k])
    requires w != [] && forall i :: 0 <= i < |w| ==> IsSeparator(w[i])
    ensures Collapsed(JoinWith(w, ws)) == JoinWith("-", ws)
  {
    var text := JoinWith(w, ws);
    JoinWithInherits(w, ws, IsLoweredSlugInput);
    assert Lower(text) == text;
    KeepAll(text, IsSlugInput);
    CollapseJoin(ws, w);
  }

  lemma StripDashesNone(s: string)
    requires s == [] || (s[0] != '-' && s[|s| - 1] != '-')
    ensures StripDashes(s) == s
  {
    assert DropLeadingDashes(s) == s;
    assert DropTrailingDashes(s) == s;
  }

  /** A string made of slug characters, without hyphens at its ends, is
      left as it is by `slugify`. */
  lemma SlugifyFixes(s: string)
    requires forall i :: 0 <= i < |s| ==> IsSlugChar(s[i])
    requires s == [] || (s[0] != '-' && s[|s| - 1] != '-')
    ensures Slugify(s) == s
  {
    assert Lower(s) == s;
    KeepAll(s, IsSlugInput);
    CollapseNoSeparators(s);
    assert Collapsed(s) == s;
    StripDashesNone(s);
  }

  /** A slug is its own slug. */
  lemma SlugifyIdempotent(text: string)
    ensures Slugify(Slugify(text)) == Slugify(text)
  {
    SlugifyFixes(Slugify(text));
  }

  // ---------------------------------------------------------------------
  // title_to_classname
  // ---------------------------------------------------------------------

  predicate IsNotBlank(c: char) {
    c != ' '
  }

  /** Every character that is not alphanumeric becomes a space. */
  function MaskNonAlnum(s: string): (r: string)
    ensures |r| == |s|
    ensures forall i :: 0 <= i < |s| ==> r[i] == (if IsAlnum(s[i]) then s[i] else ' ')
  {
    if s == [] then [] else [if IsAlnum(s[0]) then s[0] else ' '] + MaskNonAlnum(s[1..])
  }

  /** `str.title()` on ASCII: a letter is upper-cased when the character
      before it is not a letter (digits and spaces both count as word
      boundaries) and lower-cased otherwise. `afterLetter` tells whether the
      character before `s[0]` was a letter. */
  function TitleFrom(s: string, afterLetter: bool): (r: string)
    ensures |r| == |s|
    ensures forall i :: 0 <= i < |s| ==>
      r[i] == (if (if i == 0 then afterLetter else IsLetter(s[i - 1])) then ToLower(s[i]) else ToUpper(s[i]))
  {
    if s == [] then []
    else
      var c := if afterLetter then ToLower(s[0]) else ToUpper(s[0]);
      [c] + TitleFrom(s[1..], IsLetter(s[0]))
  }

  /** The title-cased title with its spaces removed. */
  function ClassCore(title: string): string {
    Keep(TitleFrom(MaskNonAlnum(title), false), IsNotBlank)
  }

  predicate IsAlnumOrBlank(c: char) {
    IsAlnum(c) || c == ' '
  }

  lemma CaseMapKeepsClass(c: char)
    ensures IsAlnumOrBlank(ToLower(c)) == IsAlnumOrBlank(c)
    ensures IsAlnumOrBlank(ToUpper(c)) == IsAlnumOrBlank(c)
  {
  }

  /** Title-casing a masked title and dropping its spaces leaves letters and
      digits only. */
  lemma CoreAlnum(s: string, afterLetter: bool)
    requires forall i :: 0 <= i < |s| ==> IsAlnumOrBlank(s[i])
    ensures forall i :: 0 <= i < |Keep(TitleFrom(s, afterLetter), IsNotBlank)| ==>
      IsAlnum(Keep(TitleFrom(s, afterLetter), IsNotBlank)[i])
  {
    var t := TitleFrom(s, afterLetter);
    forall i | 0 <= i < |t|
      ensures IsAlnumOrBlank(t[i])
    {
      CaseMapKeepsClass(s[i]);
      assert t[i] == (if (if i == 0 then afterLetter else IsLetter(s[i - 1])) then ToLower(s[i]) else ToUpper(s[i]));
    }
    KeepInherits(t, IsNotBlank, IsAlnumOrBlank);
  }

  /** The first character left after dropping spaces starts a word, so
      `str.title()` upper-cased it (or it is a digit). */
  lemma {:induction false} CoreHead(s: string)
    requires forall i :: 0 <= i < |s| ==> IsAlnumOrBlank(s[i])
    ensures var k := Keep(TitleFrom(s, false), IsNotBlank); k != [] ==> IsUpper(k[0]) || IsDigit(k[0])
    decreases |s|
  {
    if s != [] {
      if s[0] == ' ' {
        assert TitleFrom(s, false) == [' '] + TitleFrom(s[1..], false);
        CoreHead(s[1..]);
      } else {
        assert TitleFrom(s, false) == [ToUpper(s[0])] + TitleFrom(s[1..], IsLetter(s[0]));
      }
    }
  }

  /** `title_to_classname(title)`: the title-cased alphanumeric words of the
      title run together, prefixed with `Exercise` when that would otherwise
      be empty or start with a digit. The result is a non-empty alphanumeric
      name starting with an upper-case letter. */
  function TitleToClassName(title: string): (r: string)
    ensures r != [] && IsUpper(r[0])
    ensures forall i :: 0 <= i < |r| ==> IsAlnum(r[i])
  {
    var s := ClassCore(title);
    CoreHead(MaskNonAlnum(title));
    CoreAlnum(MaskNonAlnum(title), false);
    if s == [] || !IsLetter(s[0]) then "Exercise" + s else s
  }

  lemma {:induction false} MaskThenDropSpaces(s: string)
    ensures Keep(MaskNonAlnum(s), IsNotBlank) == Keep(s, IsAlnum)
    decreases |s|
  {
    if s != [] {
      MaskThenDropSpaces(s[1..]);
    }
  }

  lemma {:induction false} TitlePreservesSpelling(s: string, afterLetter: bool)
    ensures Lower(Keep(TitleFrom(s, afterLetter), IsNotBlank)) == Lower(Keep(s, IsNotBlank))
    decreases |s|
  {
    if s != [] {
      var t := TitleFrom(s, afterLetter);
      assert t[1..] == TitleFrom(s[1..], IsLetter(s[0]));
      TitlePreservesSpelling(s[1..], IsLetter(s[0]));
      if s[0] != ' ' {
        LowerConcat([t[0]], Keep(t[1..], IsNotBlank));
        LowerConcat([s[0]], Keep(s[1..], IsNotBlank));
      }
    }
  }

  /** Up to letter case, the class name spells the title's letters and
      digits in order, behind an `Exercise` prefix exactly when those do not
      start with a letter. */
  lemma ClassNameSpellsTitle(title: string)
    ensures var a := Keep(title, IsAlnum);
      Lower(TitleToClassName(title)) ==
        (if a != [] && IsLetter(a[0]) then Lower(a) else "exercise" + Lower(a))
  {
    var a := Keep(title, IsAlnum);
    var s := ClassCore(title);
    MaskThenDropSpaces(title);
    TitlePreservesSpelling(MaskNonAlnum(title), false);
    SameLowerSameHead(s, a);
    if s == [] || !IsLetter(s[0]) {
      LowerConcat("Exercise", s);
      LowerExercise();
    }
  }

  lemma LowerExercise()
    ensures Lower("Exercise") == "exercise"
  {
  }

  /** Strings equal up to case agree on whether they start with a letter. */
  lemma SameLowerSameHead(s: string, a: string)
    requires Lower(s) == Lower(a)
    ensures s != [] <==> a != []
    ensures s != [] ==> (IsLetter(s[0]) <==> IsLetter(a[0]))
  {
    if s != [] {
      assert Lower(s)[0] == ToLower(s[0]) && Lower(a)[0] == ToLower(a[0]);
    }
  }
}

=== FILE: literals.dfy ===
/** `java_literal`: how a YAML value becomes Java source text in a generated
    test. Scalars become Java literals, lists become array creation
    expressions whose element type is chosen from the first element only. */
module Literals {
  import opened Results
  import opened Text
  import opened Decimal

  /** The values `yaml.safe_load` can hand over. A float carries the text
      Python's `repr` gives it; `Other` stands for a mapping or any other
      kind of value, with whether it is empty. */
  datatype Value =
    | Null
    | Bool(b: bool)
    | Int(i: int)
    | Float(repr: string)
    | Str(s: string)
    | List(items: seq<Value>)
    | Other(typeName: string, isEmpty: bool)

  /** Why `java_literal` raises. */
  datatype LitError =
    | Unsupported(value: Value)
    | RowNotList(row: Value)
    | NotInteger(element: Value)

  /** Python truthiness, as `if expected:` sees it. */
  predicate Truthy(v: Value) {
    match v
    case Null => false
    case Bool(b) => b
    case Int(i) => i != 0
    case Float(repr) => repr != "0.0" && repr != "-0.0"
    case Str(s) => s != []
    case List(items) => items != []
    case Other(_, isEmpty) => !isEmpty
  }

  // ---------------------------------------------------------------------
  // String literals
  // ---------------------------------------------------------------------

  /** `value.replace("\\", "\\\\").replace("\"", "\\\"")`. */
  function Escape(s: string): string {
    ReplaceChar(ReplaceChar(s, '\\', "\\\\"), '"', "\\\"")
  }

  /** What escaping does to one character. */
  function EscapeChar(c: char): string {
    if c == '\\' then "\\\\" else if c == '"' then "\\\"" else [c]
  }

  /** The two passes act character by character. */
  lemma EscapeCons(c: char, rest: string)
    ensures Escape([c] + rest) == EscapeChar(c) + Escape(rest)
  {
    var once := ReplaceChar([c] + rest, '\\', "\\\\");
    assert ([c] + rest)[1..] == rest;
    assert once == (if c == '\\' then "\\\\" else [c]) + ReplaceChar(rest, '\\', "\\\\");
    ReplaceCharConcat(if c == '\\' then "\\\\" else [c], ReplaceChar(rest, '\\', "\\\\"), '"', "\\\"");
  }

  /** The inverse of the renderer's escaping, read as Java reads the two
      escapes it writes: a bare `"` would end the literal early, and a
      backslash must start `\\` or `\"`. Any other character is taken as
      itself; Java also rejects a raw line break inside a literal, which this
      reader does not check (the escaping leaves line breaks raw). */
  function Unescape(e: string): Option<string>
    decreases |e|
  {
    if e == [] then Some([])
    else if e[0] == '"' then None
    else if e[0] == '\\' then
      if |e| >= 2 && (e[1] == '\\' || e[1] == '"') then
        match Unescape(e[2..])
        case None => None
        case Some(rest) => Some([e[1]] + rest)
      else None
    else
      match Unescape(e[1..])
      case None => None
      case Some(rest) => Some([e[0]] + rest)
  }

  /** The text of a Java string literal: the characters between the quotes,
      un-escaped. */
  function ReadStringLiteral(lit: string): Option<string> {
    if |lit| >= 2 && lit[0] == '"' && lit[|lit| - 1] == '"' then Unescape(lit[1..|lit| - 1])
    else None
  }

  function StringLiteral(s: string): string {
    "\"" + Escape(s) + "\""
  }

  /** Un-escaping the escaped text gives the original back, and no quote is
      left bare in between. */
  lemma {:induction false} UnescapeEscape(s: string)
    ensures Unescape(Escape(s)) == Some(s)
    decreases |s|
  {
    if s != [] {
      EscapeCons(s[0], s[1..]);
      assert s == [s[0]] + s[1..];
      UnescapeEscape(s[1..]);
      var e := Escape(s);
      if s[0] == '\\' || s[0] == '"' {
        assert e[2..] == Escape(s[1..]);
      } else {
        assert e[1..] == Escape(s[1..]);
      }
    }
  }

  /** The string literal reads back as the string it was made from. */
  lemma StringLiteralRoundTrip(s: string)
    ensures ReadStringLiteral(StringLiteral(s)) == Some(s)
  {
    var lit := StringLiteral(s);
    assert lit[1..|lit| - 1] == Escape(s);
    UnescapeEscape(s);
  }

  // ---------------------------------------------------------------------
  // java_literal
  // ---------------------------------------------------------------------

  /** `str(int(x))` for an element of a nested row: ints print in decimal
      and booleans as `1` or `0`; anything else is not an integer here. */
  function RowElement(x: Value): Result<string, LitError> {
    match x
    case Int(i) => Ok(IntToText(i))
    case Bool(b) => Ok(if b then "1" else "0")
    case _ => Err(NotInteger(x))
  }

  function RowElements(xs: seq<Value>): (r: Result<seq<string>, LitError>)
    ensures r.Ok? ==> |r.value| == |xs|
  {
    if xs == [] then Ok([])
    else
      var head :- RowElement(xs[0]);
      var tail :- RowElements(xs[1..]);
      Ok([head] + tail)
  }

  /** One row of an `int[][]` literal; the row itself must be a list. */
  function RenderRow(row: Value): Result<string, LitError> {
    match row
    case List(xs) =>
      var elements :- RowElements(xs);
      Ok(ArrayLiteral("int[]", elements))
    case _ => Err(RowNotList(row))
  }

  function RenderRows(rows: seq<Value>): (r: Result<seq<string>, LitError>)
    ensures r.Ok? ==> |r.value| == |rows|
  {
    if rows == [] then Ok([])
    else
      var head :- RenderRow(rows[0]);
      var tail :- RenderRows(rows[1..]);
      Ok([head] + tail)
  }

  /** The start `new T{` of an array creation expression. */
  function ArrayHead(arrayType: string): string {
    "new " + arrayType + "{"
  }

  /** The array creation expression `new T{e1,e2,...}`. */
  function ArrayLiteral(arrayType: string, elements: seq<string>): string {
    ArrayHead(arrayType) + JoinWith(",", elements) + "}"
  }

  /** `java_literal(value)`. The checks run in the source's order, so a
      boolean is never taken for an int. */
  function Render(v: Value): Result<string, LitError>
    decreases v, 1
  {
    match v
    case Null => Ok("null")
    case Bool(b) => Ok(if b then "true" else "false")
    case Int(i) => Ok(IntToText(i))
    case Float(repr) => Ok(repr)
    case Str(s) => Ok(StringLiteral(s))
    case List(items) =>
      if items == [] then Ok(ArrayLiteral("int[]", []))
      else if items[0].Str? then
        var inner :- RenderAll(items);
        Ok(ArrayLiteral("String[]", inner))
      else if items[0].Int? || items[0].Bool? then
        var inner :- RenderAll(items);
        Ok(ArrayLiteral("int[]", inner))
      else if items[0].List? then
        var rows :- RenderRows(items);
        Ok(ArrayLiteral("int[][]", rows))
      else Err(Unsupported(v))
    case Other(_, _) => Err(Unsupported(v))
  }

  /** The elements of a list rendered in order; the first failure is the
      result. */
  function RenderAll(vs: seq<Value>): (r: Result<seq<string>, LitError>)
    ensures r.Ok? ==> |r.value| == |vs|
    decreases vs, 0
  {
    if vs == [] then Ok([])
    else
      var head :- Render(vs[0]);
      var tail :- RenderAll(vs[1..]);
      Ok([head] + tail)
  }

  // ---------------------------------------------------------------------
  // What renders: an independent description
  // ---------------------------------------------------------------------

  predicate IsIntLike(x: Value) {
    x.Int? || x.Bool?
  }

  /** A row of an `int[][]`: a list of ints and booleans. */
  predicate IsIntRow(row: Value) {
    row.List? && forall j :: 0 <= j < |row.items| ==> IsIntLike(row.items[j])
  }

  /** The values `java_literal` accepts: every scalar, the empty list, a
      list led by a string, int or bool whose elements are all accepted, and
      a list led by a list whose elements are all rows of ints. */
  predicate Supported(v: Value)
    decreases v
  {
    match v
    case Other(_, _) => false
    case List(items) =>
      || items == []
      || ((items[0].Str? || IsIntLike(items[0])) && forall k :: 0 <= k < |items| ==> Supported(items[k]))
      || (items[0].List? && forall k :: 0 <= k < |items| ==> IsIntRow(items[k]))
    case _ => true
  }

  lemma {:induction false} RowElementsOk(xs: seq<Value>)
    ensures RowElements(xs).Ok? <==> forall j :: 0 <= j < |xs| ==> IsIntLike(xs[j])
    decreases |xs|
  {
    if xs != [] {
      RowElementsOk(xs[1..]);
      assert forall j :: 1 <= j < |xs| ==> xs[j] == xs[1..][j - 1];
    }
  }

  lemma {:induction false} RenderRowsOk(rows: seq<Value>)
    ensures RenderRows(rows).Ok? <==> forall k :: 0 <= k < |rows| ==> IsIntRow(rows[k])
    decreases |rows|
  {
    if rows != [] {
      if rows[0].List? {
        RowElementsOk(rows[0].items);
      }
      RenderRowsOk(rows[1..]);
      assert forall k :: 1 <= k < |rows| ==> rows[k] == rows[1..][k - 1];
    }
  }

  /** `java_literal` succeeds exactly on the supported values. */
  lemma {:induction false} RenderOk(v: Value)
    ensures Render(v).Ok? <==> Supported(v)
    decreases v, 1
  {
    if v.List? && v.items != [] {
      var items := v.items;
      if items[0].Str? || IsIntLike(items[0]) {
        RenderAllOk(items);
      } else if items[0].List? {
        RenderRowsOk(items);
      }
    }
  }

  lemma {:induction false} RenderAllOk(vs: seq<Value>)
    ensures RenderAll(vs).Ok? <==> forall k :: 0 <= k < |vs| ==> Supported(vs[k])
    decreases vs, 0
  {
    if vs != [] {
      RenderOk(vs[0]);
      RenderAllOk(vs[1..]);
      assert forall k :: 1 <= k < |vs| ==> vs[k] == vs[1..][k - 1];
    }
  }

  // ---------------------------------------------------------------------
  // Scalars
  // ---------------------------------------------------------------------

  /** `None`, booleans, ints and strings become the Java literal that
      denotes them: a boolean is never printed as a number, an int reads
      back as itself, a string reads back as itself. */
  lemma ScalarLiterals(v: Value)
    requires !v.List? && !v.Other?
    ensures Render(v).Ok?
    ensures v.Null? ==> Render(v).value == "null"
    ensures v.Bool? ==> Render(v).value == (if v.b then "true" else "false")
    ensures v.Int? ==> ReadInt(Render(v).value) == Some(v.i)
    ensures v.Str? ==> ReadStringLiteral(Render(v).value) == Some(v.s)
  {
    if v.Int? {
      IntTextRoundTrip(v.i);
    }
    if v.Str? {
      StringLiteralRoundTrip(v.s);
    }
  }

  // ---------------------------------------------------------------------
  // Arrays: the element type comes from the first element
  // ---------------------------------------------------------------------

  /** The array type a rendered list is created as. */
  function ArrayType(items: seq<Value>): string {
    if items == [] then "int[]"
    else if items[0].Str? then "String[]"
    else if items[0].List? then "int[][]"
    else "int[]"
  }

  /** A rendered list is `new T{...}` with `T` fixed by the first element
      alone, whatever the others are. */
  lemma ArrayShape(items: seq<Value>)
    requires Render(List(items)).Ok?
    ensures var r := Render(List(items)).value;
      var head := ArrayHead(ArrayType(items));
      && |r| > |head|
      && r[..|head|] == head
      && r[|r| - 1] == '}'
  {
    var t := ArrayType(items);
    var inner :=
      if items == [] then []
      else if items[0].List? then RenderRows(items).value
      else RenderAll(items).value;
    assert Render(List(items)).value == ArrayLiteral(t, inner);
    Framed(ArrayHead(t), JoinWith(",", inner), "}");
  }

  /** `text` is the Java literal of `v`. */
  predicate RendersAs(v: Value, text: string) {
    Render(v).Ok? && Render(v).value == text
  }

  /** `int(x)` for an int or a bool. */
  function IntOf(x: Value): int
    requires x.Int? || x.Bool?
  {
    if x.Int? then x.i else if x.b then 1 else 0
  }

  /** The rendered elements of a list are the literals of its elements, at
      the same positions. */
  lemma {:induction false} RenderAllEach(vs: seq<Value>)
    requires RenderAll(vs).Ok?
    ensures forall k :: 0 <= k < |vs| ==> RendersAs(vs[k], RenderAll(vs).value[k])
    decreases |vs|
  {
    if vs != [] {
      var r := RenderAll(vs).value;
      var rest := RenderAll(vs[1..]).value;
      RenderAllEach(vs[1..]);
      assert r == [Render(vs[0]).value] + rest;
      forall k | 0 <= k < |vs|
        ensures RendersAs(vs[k], r[k])
      {
        if k > 0 {
          assert vs[k] == vs[1..][k - 1];
          assert r[k] == rest[k - 1];
        }
      }
    }
  }

  /** Each element of a row is an int or a bool, printed as the decimal
      text of `int()` of it. */
  lemma {:induction false} RowElementsEach(xs: seq<Value>)
    requires RowElements(xs).Ok?
    ensures forall k :: 0 <= k < |xs| ==>
      && (xs[k].Int? || xs[k].Bool?)
      && RowElements(xs).value[k] == IntToText(IntOf(xs[k]))
    decreases |xs|
  {
    if xs != [] {
      var r := RowElements(xs).value;
      var rest := RowElements(xs[1..]).value;
      RowElementsEach(xs[1..]);
      assert r == [RowElement(xs[0]).value] + rest;
      assert IntToText(1) == "1" && IntToText(0) == "0";
      forall k | 0 <= k < |xs|
        ensures (xs[k].Int? || xs[k].Bool?) && r[k] == IntToText(IntOf(xs[k]))
      {
        if k > 0 {
          assert xs[k] == xs[1..][k - 1];
          assert r[k] == rest[k - 1];
        }
      }
    }
  }

  /** The rendered rows are the row literals of the rows, at the same
      positions; each row is a list whose elements render as a row. */
  lemma {:induction false} RenderRowsEach(rows: seq<Value>)
    requires RenderRows(rows).Ok?
    ensures forall k :: 0 <= k < |rows| ==>
      && rows[k].List?
      && RowElements(rows[k].items).Ok?
      && RenderRows(rows).value[k] == ArrayLiteral("int[]", RowElements(rows[k].items).value)
    decreases |rows|
  {
    if rows != [] {
      var r := RenderRows(rows).value;
      var rest := RenderRows(rows[1..]).value;
      RenderRowsEach(rows[1..]);
      assert r == [RenderRow(rows[0]).value] + rest;
      forall k | 0 <= k < |rows|
        ensures rows[k].List? && RowElements(rows[k].items).Ok?
          && r[k] == ArrayLiteral("int[]", RowElements(rows[k].items).value)
      {
        if k > 0 {
          assert rows[k] == rows[1..][k - 1];
          assert r[k] == rest[k - 1];
        }
      }
    }
  }

  /** What sits between the braces of a rendered list: nothing for the
      empty list; the literals of the elements, in order, for a list not led
      by a list; the row literals of the rows for a list led by a list. */
  lemma ArrayElements(items: seq<Value>)
    requires Render(List(items)).Ok?
    ensures items == [] ==> Render(List(items)).value == ArrayLiteral("int[]", [])
    ensures items != [] && !items[0].List? ==>
      && RenderAll(items).Ok?
      && Render(List(items)).value == ArrayLiteral(ArrayType(items), RenderAll(items).value)
      && forall k :: 0 <= k < |items| ==> RendersAs(items[k], RenderAll(items).value[k])
    ensures items != [] && items[0].List? ==>
      && RenderRows(items).Ok?
      && Render(List(items)).value == ArrayLiteral("int[][]", RenderRows(items).value)
      && forall k :: 0 <= k < |items| ==>
           && items[k].List?
           && RowElements(items[k].items).Ok?
           && RenderRows(items).value[k] == ArrayLiteral("int[]", RowElements(items[k].items).value)
  {
    if items != [] {
      if items[0].List? {
        RenderRowsEach(items);
      } else {
        RenderAllEach(items);
      }
    }
  }

  /** Any list led by a boolean that renders is created as `int[]`, and
      its leading boolean is printed as `true` or `false`, not as a number. */
  lemma BoolLedList(items: seq<Value>)
    requires items != [] && items[0].Bool?
    requires Render(List(items)).Ok?
    ensures RenderAll(items).Ok?
    ensures Render(List(items)).value == ArrayLiteral("int[]", RenderAll(items).value)
    ensures RenderAll(items).value[0] == (if items[0].b then "true" else "false")
  {
    ArrayElements(items);
  }

  /** A list led by a boolean is still created as `int[]`, with its
      booleans printed as `true`/`false`. */
  lemma BoolLedListIsIntArray()
    ensures Render(List([Bool(true), Int(2)])).Ok?
    ensures Render(List([Bool(true), Int(2)])).value == "new int[]{true,2}"
  {
    var one := [Int(2)];
    var two := [Bool(true), Int(2)];
    assert IntToText(2) == "2";
    assert one[1..] == [];
    assert RenderAll(one[1..]).Ok? && RenderAll(one[1..]).value == [];
    assert RenderAll(one).Ok? && RenderAll(one).value == ["2"];
    assert two[1..] == one;
    assert RenderAll(two).Ok? && RenderAll(two).value == ["true", "2"];
    assert JoinWith(",", ["true", "2"]) == "true,2";
  }

  /** Reads `new int[]{a,b,...}` back into its numbers. */
  function ReadIntArray(lit: string): Option<seq<int>> {
    var head := ArrayHead("int[]");
    if |lit| > |head| && lit[..|head|] == head && lit[|lit| - 1] == '}' then
      var inner := lit[|head|..|lit| - 1];
      if inner == [] then Some([]) else ReadInts(SplitOn(inner, ','))
    else None
  }

  function ReadInts(parts: seq<string>): (r: Option<seq<int>>)
    ensures r.Some? ==> |r.value| == |parts|
  {
    if parts == [] then Some([])
    else
      match ReadInt(parts[0])
      case None => None
      case Some(x) =>
        match ReadInts(parts[1..])
        case None => None
        case Some(rest) => Some([x] + rest)
  }

  function Ints(xs: seq<int>): (r: seq<Value>)
    ensures |r| == |xs|
    ensures forall k :: 0 <= k < |xs| ==> r[k] == Int(xs[k])
  {
    if xs == [] then [] else [Int(xs[0])] + Ints(xs[1..])
  }

  function IntTexts(xs: seq<int>): (r: seq<string>)
    ensures |r| == |xs|
    ensures forall k :: 0 <= k < |xs| ==> r[k] == IntToText(xs[k])
  {
    if xs == [] then [] else [IntToText(xs[0])] + IntTexts(xs[1..])
  }

  lemma {:induction false} RenderAllInts(xs: seq<int>)
    ensures RenderAll(Ints(xs)) == Ok(IntTexts(xs))
    decreases |xs|
  {
    if xs != [] {
      assert Ints(xs)[1..] == Ints(xs[1..]);
      RenderAllInts(xs[1..]);
    }
  }

  lemma {:induction false} ReadIntsTexts(xs: seq<int>)
    ensures ReadInts(IntTexts(xs)) == Some(xs)
    decreases |xs|
  {
    if xs != [] {
      IntTextRoundTrip(xs[0]);
      assert IntTexts(xs)[1..] == IntTexts(xs[1..]);
      ReadIntsTexts(xs[1..]);
      assert xs == [xs[0]] + xs[1..];
    }
  }

  /** The decimal texts are nonempty and hold no comma. */
  lemma IntTextsPlain(xs: seq<int>)
    ensures forall k :: 0 <= k < |xs| ==> IntTexts(xs)[k] != [] && ',' !in IntTexts(xs)[k]
  {
    forall k | 0 <= k < |xs|
      ensures IntTexts(xs)[k] != [] && ',' !in IntTexts(xs)[k]
    {
      var t := IntToText(xs[k]);
      assert forall j :: 0 <= j < |t| ==> t[j] != ',';
    }
  }

  /** Reading a literal made of comma-free nonempty numbers. */
  lemma ReadIntArrayOf(texts: seq<string>)
    requires texts != []
    requires forall k :: 0 <= k < |texts| ==> texts[k] != [] && ',' !in texts[k]
    ensures ReadIntArray(ArrayLiteral("int[]", texts)) == ReadInts(texts)
  {
    var head := ArrayHead("int[]");
    var inner := JoinWith(",", texts);
    JoinWithEnds(",", texts);
    Framed(head, inner, "}");
    SplitOnJoin(texts, ',');
  }

  /** Round trip: a list of ints renders to an `int[]` literal that reads
      back as the same numbers in the same order. */
  lemma IntArrayRoundTrip(xs: seq<int>)
    ensures Render(List(Ints(xs))).Ok?
    ensures ReadIntArray(Render(List(Ints(xs))).value) == Some(xs)
  {
    if xs != [] {
      var texts := IntTexts(xs);
      RenderAllInts(xs);
      assert Ints(xs)[0].Int?;
      assert Render(List(Ints(xs))) == Ok(ArrayLiteral("int[]", texts));
      IntTextsPlain(xs);
      ReadIntArrayOf(texts);
      ReadIntsTexts(xs);
    } else {
      Framed(ArrayHead("int[]"), JoinWith(",", []), "}");
    }
  }
}

=== FILE: results.dfy ===
/** Failure-compatible wrappers: `Option` for optional YAML fields and
    `Result` for the operations that raise in the generator. */
module Results {

  datatype Option<+T> = None | Some(value: T)

  /** `Ok` carries the value of an operation that returned normally, `Err`
      the reason it raised. */
  datatype Result<+T, +E> = Ok(value: T) | Err(error: E) {

    predicate IsFailure() {
      Err?
    }

    function PropagateFailure<U>(): Result<U, E>
      requires Err?
    {
      Err(error)
    }

    function Extract(): T
      requires Ok?
    {
      value
    }
  }
}

=== FILE: signatures.dfy ===
/** `parse_method_signature` and its inverse, the signature line that
    `render_solution_class` writes into the stub. */
module Signatures {
  import opened Results
  import opened Text

  datatype Param = Param(typ: string, name: string)

  /** The parsed triple `(ret_type, name, [(ptype, pname), ...])`. */
  datatype Signature = Signature(ret: string, name: string, params: seq<Param>)

  /** Why `parse_method_signature` raised `ValueError`. */
  datatype SignatureError =
    | Unparsable(sig: string)
    | BadParameter(part: string, sig: string)

  /** The three groups of the signature regex: return type, method name and
      the raw text between the parentheses. */
  datatype Shape = Shape(ret: string, name: string, paramText: string)

  /** `[A-Za-z_]\w*`. */
  predicate IsIdentifier(s: string) {
    s != [] && IsIdentStart(s[0]) && forall i :: 0 <= i < |s| ==> IsWordChar(s[i])
  }

  // ---------------------------------------------------------------------
  // The regex `\s*(\S+)\s+([A-Za-z_]\w*)\s*\((.*)\)\s*$` under `re.match`
  // ---------------------------------------------------------------------

  /** What the regex means, stated as a decomposition of the input: blanks,
      a whitespace-free return type, at least one blank, an identifier,
      blanks, `(`, a newline-free parameter text, `)`, blanks to the end. */
  ghost predicate RegexMatches(s: string, m: Shape) {
    && IsToken(m.ret)
    && IsIdentifier(m.name)
    && '\n' !in m.paramText
    && exists lead, gap, pad, tail ::
      && AllSpace(lead) && AllSpace(gap) && gap != [] && AllSpace(pad) && AllSpace(tail)
      && s == lead + (m.ret + (gap + (m.name + (pad + ("(" + (m.paramText + (")" + tail)))))))
  }

  /** The matcher, written the way the backtracking engine settles: every
      greedy group is forced to its maximal run, and the parameter text ends
      at the last non-blank character, which must be `)`. One function per
      stage of the regex. */
  function MatchShape(s: string): Option<Shape> {
    MatchRet(TrimLeft(s))
  }

  /** `(\S+)`. */
  function MatchRet(s: string): Option<Shape> {
    var n := SpanOf(s, IsNonSpace);
    if n == 0 then None else MatchGap(s[..n], s[n..])
  }

  /** `\s+`. */
  function MatchGap(ret: string, s: string): Option<Shape> {
    var n := SpanOf(s, IsSpace);
    if n == 0 then None else MatchName(ret, s[n..])
  }

  /** `([A-Za-z_]\w*)\s*`. */
  function MatchName(ret: string, s: string): Option<Shape> {
    var n := SpanOf(s, IsWordChar);
    if n == 0 || !IsIdentStart(s[0]) then None else MatchOpen(ret, s[..n], TrimLeft(s[n..]))
  }

  /** `\(`, then everything up to the trailing blanks. */
  function MatchOpen(ret: string, name: string, s: string): Option<Shape> {
    if s == [] || s[0] != '(' then None else MatchClose(ret, name, TrimRight(s[1..]))
  }

  /** `(.*)\)`: the parameter text may not contain a newline. */
  function MatchClose(ret: string, name: string, body: string): Option<Shape> {
    if body == [] || body[|body| - 1] != ')' || '\n' in body[..|body| - 1] then None
    else Some(Shape(ret, name, body[..|body| - 1]))
  }

  lemma TrimLeftSplit(s: string)
    ensures AllSpace(s[..SpanOf(s, IsSpace)])
    ensures s == s[..SpanOf(s, IsSpace)] + TrimLeft(s)
  {
  }

  lemma TrimLeftPadded(w: string, rest: string)
    requires AllSpace(w)
    requires rest == [] || !IsSpace(rest[0])
    ensures TrimLeft(w + rest) == rest
  {
    SpanOfRun(w, rest, IsSpace);
  }

  /** The bracket stage fixes the parameter text and leaves only blanks. */
  lemma MatchOpenSound(ret: string, name: string, s: string, m: Shape) returns (tail: string)
    requires MatchOpen(ret, name, s) == Some(m)
    ensures m.ret == ret && m.name == name && '\n' !in m.paramText && AllSpace(tail)
    ensures s == "(" + (m.paramText + (")" + tail))
  {
    var body := TrimRight(s[1..]);
    assert MatchClose(ret, name, body) == Some(m);
    tail := s[1..][|body|..];
    assert s[1..] == body + tail;
  }

  /** The name stage takes a whole identifier. */
  lemma MatchNameSound(ret: string, s: string, m: Shape) returns (pad: string, tail: string)
    requires MatchName(ret, s) == Some(m)
    ensures m.ret == ret && IsIdentifier(m.name) && '\n' !in m.paramText
    ensures AllSpace(pad) && AllSpace(tail)
    ensures s == m.name + (pad + ("(" + (m.paramText + (")" + tail))))
  {
    var n := SpanOf(s, IsWordChar);
    assert n != 0 && IsIdentStart(s[0]);
    var s4 := s[n..];
    TrimLeftSplit(s4);
    pad := s4[..SpanOf(s4, IsSpace)];
    tail := MatchOpenSound(ret, s[..n], TrimLeft(s4), m);
    SplitAt(s, n);
  }

  /** The gap stage takes at least one blank. */
  lemma MatchGapSound(ret: string, s: string, m: Shape) returns (gap: string, pad: string, tail: string)
    requires MatchGap(ret, s) == Some(m)
    ensures m.ret == ret && IsIdentifier(m.name) && '\n' !in m.paramText
    ensures AllSpace(gap) && gap != [] && AllSpace(pad) && AllSpace(tail)
    ensures s == gap + (m.name + (pad + ("(" + (m.paramText + (")" + tail)))))
  {
    var n := SpanOf(s, IsSpace);
    assert n != 0;
    TrimLeftSplit(s);
    SplitAt(s, n);
    gap := s[..n];
    pad, tail := MatchNameSound(ret, s[n..], m);
  }

  /** The return-type stage takes a whole whitespace-free token. */
  lemma MatchRetSound(s: string, m: Shape) returns (gap: string, pad: string, tail: string)
    requires MatchRet(s) == Some(m)
    ensures IsToken(m.ret) && IsIdentifier(m.name) && '\n' !in m.paramText
    ensures AllSpace(gap) && gap != [] && AllSpace(pad) && AllSpace(tail)
    ensures s == m.ret + (gap + (m.name + (pad + ("(" + (m.paramText + (")" + tail))))))
  {
    var n := SpanOf(s, IsNonSpace);
    assert n != 0;
    gap, pad, tail := MatchGapSound(s[..n], s[n..], m);
    SplitAt(s, n);
  }

  /** Whatever the matcher accepts is a match of the regex. */
  lemma MatchShapeSound(s: string, m: Shape)
    requires MatchShape(s) == Some(m)
    ensures RegexMatches(s, m)
  {
    TrimLeftSplit(s);
    var lead := s[..SpanOf(s, IsSpace)];
    var gap, pad, tail := MatchRetSound(TrimLeft(s), m);
    assert s == lead + (m.ret + (gap + (m.name + (pad + ("(" + (m.paramText + (")" + tail)))))));
  }

  /** The bracket stage accepts a bracketed newline-free text followed by blanks. */
  lemma MatchOpenComplete(ret: string, name: string, text: string, tail: string)
    requires '\n' !in text && AllSpace(tail)
    ensures MatchOpen(ret, name, "(" + (text + (")" + tail))) == Some(Shape(ret, name, text))
  {
    var s := "(" + (text + (")" + tail));
    var body := text + ")";
    assert s[1..] == body + tail;
    TrimRightByPadded(body, tail, IsSpace);
    assert body[..|body| - 1] == text;
  }

  /** The name stage takes the identifier and skips the blanks after it. */
  lemma MatchNameComplete(ret: string, name: string, pad: string, rest: string)
    requires IsIdentifier(name) && AllSpace(pad)
    requires rest != [] && rest[0] == '('
    ensures MatchName(ret, name + (pad + rest)) == MatchOpen(ret, name, rest)
  {
    var s := name + (pad + rest);
    assert (pad + rest)[0] == if pad == [] then rest[0] else pad[0];
    SpanOfRun(name, pad + rest, IsWordChar);
    assert s[..|name|] == name && s[|name|..] == pad + rest;
    TrimLeftPadded(pad, rest);
  }

  /** The gap stage takes the whole run of blanks. */
  lemma MatchGapComplete(ret: string, gap: string, rest: string)
    requires AllSpace(gap) && gap != []
    requires rest != [] && IsIdentStart(rest[0])
    ensures MatchGap(ret, gap + rest) == MatchName(ret, rest)
  {
    SpanOfRun(gap, rest, IsSpace);
    assert (gap + rest)[|gap|..] == rest;
  }

  /** The return-type stage takes the whole token. */
  lemma MatchRetComplete(ret: string, rest: string)
    requires IsToken(ret)
    requires rest != [] && IsSpace(rest[0])
    ensures MatchRet(ret + rest) == MatchGap(ret, rest)
  {
    SpanOfRun(ret, rest, IsNonSpace);
    assert (ret + rest)[..|ret|] == ret && (ret + rest)[|ret|..] == rest;
  }

  lemma RegexMatchesIntro(s: string, m: Shape, lead: string, gap: string, pad: string, tail: string)
    requires IsToken(m.ret) && IsIdentifier(m.name) && '\n' !in m.paramText
    requires AllSpace(lead) && AllSpace(gap) && gap != [] && AllSpace(pad) && AllSpace(tail)
    requires s == lead + (m.ret + (gap + (m.name + (pad + ("(" + (m.paramText + (")" + tail)))))))
    ensures RegexMatches(s, m)
  {
  }

  /** Whatever matches the regex is accepted by the matcher, with the same
      groups: the groups are determined by the input. */
  lemma MatchShapeComplete(s: string, m: Shape)
    requires RegexMatches(s, m)
    ensures MatchShape(s) == Some(m)
  {
    var lead, gap, pad, tail :|
      && AllSpace(lead) && AllSpace(gap) && gap != [] && AllSpace(pad) && AllSpace(tail)
      && s == lead + (m.ret + (gap + (m.name + (pad + ("(" + (m.paramText + (")" + tail)))))));
    var r5 := "(" + (m.paramText + (")" + tail));
    var r3 := m.name + (pad + r5);
    var r1 := m.ret + (gap + r3);
    MatchOpenComplete(m.ret, m.name, m.paramText, tail);
    MatchNameComplete(m.ret, m.name, pad, r5);
    MatchGapComplete(m.ret, gap, r3);
    MatchRetComplete(m.ret, gap + r3);
    TrimLeftPadded(lead, r1);
  }

  /** The matcher is exactly the regex. */
  lemma MatchShapeIsRegex(s: string, m: Shape)
    ensures MatchShape(s) == Some(m) <==> RegexMatches(s, m)
  {
    if MatchShape(s) == Some(m) {
      MatchShapeSound(s, m);
    }
    if RegexMatches(s, m) {
      MatchShapeComplete(s, m);
    }
  }

  // ---------------------------------------------------------------------
  // Parameters
  // ---------------------------------------------------------------------

  /** A parameter from the words of one comma-separated part: the last word
      is the name, the words before it, re-joined with single spaces, the
      type. */
  function ParamOf(words: seq<string>): Param
    requires |words| >= 2
  {
    Param(JoinWith(" ", words[..|words| - 1]), words[|words| - 1])
  }

  /** The loop over `params.split(",")`: each stripped part must have at
      least two words; the first part that does not is reported. */
  function ParseParts(parts: seq<string>, sig: string): (r: Result<seq<Param>, SignatureError>)
    ensures r.Ok? <==> forall i :: 0 <= i < |parts| ==> IsParamPart(parts[i])
    ensures r.Ok? ==> |r.value| == |parts|
    ensures r.Ok? ==> forall i :: 0 <= i < |parts| ==>
      IsParamPart(parts[i]) && r.value[i] == ParamOf(Words(Strip(parts[i])))
    ensures r.Err? ==> r.error.BadParameter? && r.error.sig == sig
  {
    if parts == [] then Ok([])
    else
      var p := Strip(parts[0]);
      var words := Words(p);
      if |words| < 2 then Err(BadParameter(p, sig))
      else
        var rest :- ParseParts(parts[1..], sig);
        Ok([ParamOf(words)] + rest)
  }

  /** A comma-separated part that names both a type and a parameter. */
  predicate IsParamPart(p: string) {
    |Words(Strip(p))| >= 2
  }

  /** `k` is the first part that is not a parameter. */
  predicate FirstBadPart(parts: seq<string>, k: int) {
    && 0 <= k < |parts|
    && !IsParamPart(parts[k])
    && forall j :: 0 <= j < k ==> IsParamPart(parts[j])
  }

  /** A failing parameter list names its first part with fewer than two
      words, stripped, in the error. */
  lemma {:induction false} ParsePartsReportsFirstBad(parts: seq<string>, sig: string)
    requires ParseParts(parts, sig).Err?
    ensures exists k :: FirstBadPart(parts, k) && ParseParts(parts, sig).error == BadParameter(Strip(parts[k]), sig)
    decreases |parts|
  {
    if !IsParamPart(parts[0]) {
      assert FirstBadPart(parts, 0);
    } else {
      var tail := parts[1..];
      ParsePartsReportsFirstBad(tail, sig);
      var k :| FirstBadPart(tail, k) && ParseParts(tail, sig).error == BadParameter(Strip(tail[k]), sig);
      assert forall j :: 1 <= j < k + 1 ==> parts[j] == tail[j - 1];
      assert FirstBadPart(parts, k + 1);
    }
  }

  /** `m.group(3).strip()`, then zero parameters for blank text, one per
      comma-separated part otherwise. */
  function ParseParams(text: string, sig: string): (r: Result<seq<Param>, SignatureError>)
    ensures AllSpace(text) ==> r == Ok([])
    ensures !AllSpace(text) ==> r == ParseParts(SplitOn(Strip(text), ','), sig)
  {
    StripEmpty(text);
    var t := Strip(text);
    if t == [] then Ok([]) else ParseParts(SplitOn(t, ','), sig)
  }

  /** `parse_method_signature(sig)`. */
  function ParseSignature(sig: string): (r: Result<Signature, SignatureError>)
    ensures r == Err(Unparsable(sig)) <==> MatchShape(sig).None?
    ensures r.Ok? ==> MatchShape(sig) == Some(Shape(r.value.ret, r.value.name, MatchShape(sig).value.paramText))
  {
    match MatchShape(sig)
    case None => Err(Unparsable(sig))
    case Some(m) =>
      var ps :- ParseParams(m.paramText, sig);
      Ok(Signature(m.ret, m.name, ps))
  }

  // ---------------------------------------------------------------------
  // The signature line of the stub, and the round trip
  // ---------------------------------------------------------------------

  /** `f"{t} {n}"` for each parameter. */
  function ParamTexts(ps: seq<Param>): (r: seq<string>)
    ensures |r| == |ps|
    ensures forall i :: 0 <= i < |ps| ==> r[i] == ps[i].typ + " " + ps[i].name
  {
    if ps == [] then [] else [ps[0].typ + " " + ps[0].name] + ParamTexts(ps[1..])
  }

  /** `params_str`: the parameters joined with `", "`. */
  function FormatParams(ps: seq<Param>): string {
    JoinWith(", ", ParamTexts(ps))
  }

  /** `{ret_type} {method_name}({params_str})`, as the stub declares it. */
  function FormatSignature(sig: Signature): string {
    sig.ret + " " + sig.name + "(" + FormatParams(sig.params) + ")"
  }

  /** A parameter type the parser can give back: non-empty words without
      commas, separated by single spaces. */
  predicate IsTypeText(t: string) {
    ',' !in t && Words(t) != [] && t == JoinWith(" ", Words(t))
  }

  predicate IsParamName(n: string) {
    IsToken(n) && ',' !in n
  }

  /** The signatures that survive formatting and re-parsing unchanged. */
  predicate WellFormed(sig: Signature) {
    && IsToken(sig.ret)
    && IsIdentifier(sig.name)
    && forall i :: 0 <= i < |sig.params| ==> IsTypeText(sig.params[i].typ) && IsParamName(sig.params[i].name)
  }

  lemma WordsOfParamText(p: Param)
    requires IsTypeText(p.typ) && IsParamName(p.name)
    ensures Words(p.typ + " " + p.name) == Words(p.typ) + [p.name]
    ensures ParamOf(Words(p.typ + " " + p.name)) == p
  {
    var ws := Words(p.typ);
    JoinWithSnoc(" ", ws, p.name);
    WordsOfJoin(ws + [p.name]);
    assert (ws + [p.name])[..|ws|] == ws;
  }

  lemma TypeTextShape(t: string)
    requires IsTypeText(t)
    ensures t != [] && !IsSpace(t[0]) && !IsSpace(t[|t| - 1]) && '\n' !in t
  {
    var ws := Words(t);
    JoinWithEnds(" ", ws);
    JoinWithAvoids(" ", ws, '\n');
  }

  /** One part of the formatted parameter list, after its separator. */
  lemma ParamTextShape(p: Param)
    requires IsTypeText(p.typ) && IsParamName(p.name)
    ensures var x := p.typ + " " + p.name;
      x != [] && !IsSpace(x[0]) && !IsSpace(x[|x| - 1]) && ',' !in x && '\n' !in x
  {
    TypeTextShape(p.typ);
  }

  /** One formatted parameter, with whatever blank the separator left in
      front of it, parses back to that parameter. */
  lemma FormattedPartParses(lead: string, p: Param)
    requires AllSpace(lead)
    requires IsTypeText(p.typ) && IsParamName(p.name)
    ensures IsParamPart(lead + (p.typ + " " + p.name))
    ensures ParamOf(Words(Strip(lead + (p.typ + " " + p.name)))) == p
  {
    var x := p.typ + " " + p.name;
    ParamTextShape(p);
    WordsOfParamText(p);
    StripPadded(lead, x, "");
    assert lead + x + "" == lead + x;
  }

  /** `params_str.split(",")`: the first formatted parameter, then the
      others, each with the blank that followed its comma. */
  lemma SplitFormattedParams(ps: seq<Param>)
    requires ps != []
    requires forall i :: 0 <= i < |ps| ==> IsTypeText(ps[i].typ) && IsParamName(ps[i].name)
    ensures SplitOn(FormatParams(ps), ',') == [ParamTexts(ps)[0]] + Prefixed(" ", ParamTexts(ps)[1..])
  {
    var texts := ParamTexts(ps);
    forall i | 0 <= i < |texts|
      ensures ',' !in texts[i]
    {
      ParamTextShape(ps[i]);
    }
    SplitCommaSpaceJoin(texts);
  }

  /** Parts that each read as the parameter at the same position parse to
      those parameters. */
  lemma {:induction false} ParsePartsOf(parts: seq<string>, ps: seq<Param>, sig: string)
    requires |parts| == |ps|
    requires forall i :: 0 <= i < |ps| ==> IsParamPart(parts[i]) && ParamOf(Words(Strip(parts[i]))) == ps[i]
    ensures ParseParts(parts, sig) == Ok(ps)
  {
    if parts != [] {
      ParsePartsOf(parts[1..], ps[1..], sig);
      assert ps == [ps[0]] + ps[1..];
    }
  }

  /** Splitting the formatted list at commas and parsing each part gives the
      parameters back. */
  lemma ParsePartsOfFormat(ps: seq<Param>, sig: string)
    requires ps != []
    requires forall i :: 0 <= i < |ps| ==> IsTypeText(ps[i].typ) && IsParamName(ps[i].name)
    ensures ParseParts(SplitOn(FormatParams(ps), ','), sig) == Ok(ps)
  {
    SplitFormattedParams(ps);
    var parts := SplitOn(FormatParams(ps), ',');
    forall i | 0 <= i < |ps|
      ensures IsParamPart(parts[i]) && ParamOf(Words(Strip(parts[i]))) == ps[i]
    {
      var lead := if i == 0 then "" else " ";
      FormattedPartParses(lead, ps[i]);
      assert parts[i] == lead + (ps[i].typ + " " + ps[i].name);
    }
    ParsePartsOf(parts, ps, sig);
  }

  lemma FormatParamsShape(ps: seq<Param>)
    requires ps != []
    requires forall i :: 0 <= i < |ps| ==> IsTypeText(ps[i].typ) && IsParamName(ps[i].name)
    ensures var t := FormatParams(ps); !AllSpace(t) && Strip(t) == t && '\n' !in t
  {
    var texts := ParamTexts(ps);
    forall i | 0 <= i < |texts|
      ensures texts[i] != [] && '\n' !in texts[i]
    {
      ParamTextShape(ps[i]);
    }
    JoinWithEnds(", ", texts);
    JoinWithAvoids(", ", texts, '\n');
    var t := FormatParams(ps);
    ParamTextShape(ps[0]);
    ParamTextShape(ps[|ps| - 1]);
    StripPadded("", t, "");
    assert "" + t + "" == t;
  }

  /** The parameter text of a formatted signature parses to its parameters. */
  lemma ParseParamsOfFormat(ps: seq<Param>, sig: string)
    requires forall i :: 0 <= i < |ps| ==> IsTypeText(ps[i].typ) && IsParamName(ps[i].name)
    ensures ParseParams(FormatParams(ps), sig) == Ok(ps)
    ensures '\n' !in FormatParams(ps)
  {
    if ps != [] {
      FormatParamsShape(ps);
      ParsePartsOfFormat(ps, sig);
    }
  }

  lemma FormatLayout(ret: string, name: string, text: string)
    ensures ret + " " + name + "(" + text + ")" == "" + (ret + (" " + (name + ("" + ("(" + (text + (")" + "")))))))
  {
  }

  /** The formatted line matches the regex with the signature's own groups. */
  lemma FormatSignatureMatches(sig: Signature)
    requires WellFormed(sig)
    ensures MatchShape(FormatSignature(sig)) == Some(Shape(sig.ret, sig.name, FormatParams(sig.params)))
  {
    var text := FormatParams(sig.params);
    var s := FormatSignature(sig);
    ParseParamsOfFormat(sig.params, s);
    FormatLayout(sig.ret, sig.name, text);
    RegexMatchesIntro(s, Shape(sig.ret, sig.name, text), "", " ", "", "");
    MatchShapeComplete(s, Shape(sig.ret, sig.name, text));
  }

  /** Round trip: the signature line written into the stub parses back to
      the signature it was made from. */
  lemma FormatThenParse(sig: Signature)
    requires WellFormed(sig)
    ensures ParseSignature(FormatSignature(sig)) == Ok(sig)
  {
    FormatSignatureMatches(sig);
    ParseParamsOfFormat(sig.params, FormatSignature(sig));
  }

  /** A part the parser accepted without a comma in it gives a parameter
      that formats and parses back unchanged. */
  lemma ParsedParamIsWellFormed(part: string)
    requires IsParamPart(part) && ',' !in part
    ensures IsTypeText(ParamOf(Words(Strip(part))).typ)
    ensures IsParamName(ParamOf(Words(Strip(part))).name)
  {
    var w := Words(Strip(part));
    StripInherits(part, ',');
    WordsInherit(Strip(part), ',');
    WordsTypeText(w[..|w| - 1]);
  }

  /** Words without commas, joined with single spaces, make a type text. */
  lemma WordsTypeText(ws: seq<string>)
    requires ws != []
    requires forall i :: 0 <= i < |ws| ==> IsToken(ws[i]) && ',' !in ws[i]
    ensures IsTypeText(JoinWith(" ", ws))
  {
    JoinWithAvoids(" ", ws, ',');
    WordsOfJoin(ws);
  }

  /** Every parameter list the parser accepts is one that formatting
      reproduces. */
  lemma ParsedParamsWellFormed(text: string, sig: string)
    requires ParseParams(text, sig).Ok?
    ensures forall i :: 0 <= i < |ParseParams(text, sig).value| ==>
      IsTypeText(ParseParams(text, sig).value[i].typ) && IsParamName(ParseParams(text, sig).value[i].name)
  {
    if !AllSpace(text) {
      var parts := SplitOn(Strip(text), ',');
      var ps := ParseParts(parts, sig).value;
      forall i | 0 <= i < |ps|
        ensures IsTypeText(ps[i].typ) && IsParamName(ps[i].name)
      {
        ParsedParamIsWellFormed(parts[i]);
      }
    }
  }

  /** Every successful parse is well-formed, so the stub's signature line
      always re-parses to what the generator parsed: formatting is a normal
      form for the parser. */
  lemma ParsedIsWellFormed(s: string)
    requires ParseSignature(s).Ok?
    ensures WellFormed(ParseSignature(s).value)
    ensures ParseSignature(FormatSignature(ParseSignature(s).value)) == ParseSignature(s)
  {
    var m := MatchShape(s).value;
    ParsedParamsWellFormed(m.paramText, s);
    MatchShapeSound(s, m);
    FormatThenParse(ParseSignature(s).value);
  }
}

=== FILE: stubs.dfy ===
/** `render_solution_class`: the solution stub of a code exercise, a class
    with one static method whose body returns a placeholder value chosen
    from the return type. A small model of Java's typing of those
    placeholders says which of them compile. */
module Stubs {
  import opened Results
  import opened Text
  import opened Signatures

  // ---------------------------------------------------------------------
  // The default-return table
  // ---------------------------------------------------------------------

  function EndsWithBrackets(t: string): bool {
    |t| >= 2 && t[|t| - 2..] == "[]"
  }

  /** The statement `return e;`. */
  function Return(e: string): string {
    "return " + e + ";"
  }

  /** The array creation expression `new base[]{}`. */
  function EmptyArray(base: string): string {
    "new " + base + "[]{}"
  }

  /** The placeholder statement exactly as the generator writes it: a float
      method gets the double literal `0.0`. */
  function DefaultReturnAsWritten(ret: string): string {
    if ret == "void" then ""
    else if ret == "boolean" then Return("false")
    else if ret == "long" then Return("0L")
    else if ret == "double" || ret == "float" then Return("0.0")
    else if ret == "String" then Return("\"\"")
    else if EndsWithBrackets(ret) then Return(EmptyArray(ret[..|ret| - 2]))
    else Return("0")
  }

  /** The placeholder statement with the float row corrected to the float
      literal `0.0f`. Only the corrected stub uses this table; the
      generator writes the table as written. */
  function DefaultReturn(ret: string): (r: string)
    ensures ret != "float" ==> r == DefaultReturnAsWritten(ret)
    ensures r == "" <==> ret == "void"
  {
    if ret == "float" then Return("0.0f") else DefaultReturnAsWritten(ret)
  }

  // ---------------------------------------------------------------------
  // Java typing of the placeholders
  // ---------------------------------------------------------------------

  /** The Java types a stub can name and this model knows: the primitive
      types, `String`, and arrays of them. */
  datatype JavaType = Primitive(name: string) | StringType | ArrayOf(element: JavaType)

  predicate IsPrimitiveName(t: string) {
    t in {"boolean", "byte", "short", "char", "int", "long", "float", "double"}
  }

  function ParseType(t: string): Option<JavaType>
    decreases |t|
  {
    if EndsWithBrackets(t) then
      match ParseType(t[..|t| - 2])
      case None => None
      case Some(e) => Some(ArrayOf(e))
    else if IsPrimitiveName(t) then Some(Primitive(t))
    else if t == "String" then Some(StringType)
    else None
  }

  /** What the compiler knows of a placeholder expression: the constant
      `0` (an int that also fits the narrower integral types), or a value
      of a fixed type. */
  datatype ExprType = IntZero | Typed(t: JavaType)

  /** The static type of the placeholder expressions. */
  function TypeOfPlaceholder(e: string): Option<ExprType> {
    if e == "0" then Some(IntZero)
    else if e == "0L" then Some(Typed(Primitive("long")))
    else if e == "0.0" then Some(Typed(Primitive("double")))
    else if e == "0.0f" then Some(Typed(Primitive("float")))
    else if e == "false" then Some(Typed(Primitive("boolean")))
    else if e == "\"\"" then Some(Typed(StringType))
    else if |e| >= 8 && e[..4] == "new " && e[|e| - 4..] == "[]{}" then
      match ParseType(e[4..|e| - 4])
      case None => None
      case Some(elem) => Some(Typed(ArrayOf(elem)))
    else None
  }

  /** Widening primitive conversion (section 5.1.2 of the Java Language
      Specification), restricted to the types a placeholder can have. */
  predicate Widens(from: string, to: string) {
    || from == to
    || (from == "long" && (to == "float" || to == "double"))
    || (from == "float" && to == "double")
  }

  /** Assignment contexts (section 5.2 of the Java Language Specification):
      identity, widening, and the narrowing of an int constant that fits the
      target, which `0` does for every integral type. */
  predicate AssignableTo(e: ExprType, target: JavaType) {
    match e
    case IntZero =>
      target.Primitive? && target.name in {"byte", "short", "char", "int", "long", "float", "double"}
    case Typed(t) =>
      if t.Primitive? && target.Primitive? then Widens(t.name, target.name) else t == target
  }

  /** The body line compiles in a method returning `ret`: nothing for
      `void`, otherwise `return e;` with `e` assignable to the return
      type. */
  predicate BodyCompiles(ret: string, line: string) {
    if ret == "void" then line == ""
    else
      && |line| >= 8 && line[..7] == "return " && line[|line| - 1] == ';'
      && ParseType(ret).Some?
      && match TypeOfPlaceholder(line[7..|line| - 1])
         case None => false
         case Some(e) => AssignableTo(e, ParseType(ret).value)
  }

  /** A known Java return type: `void` or a type the model can parse. */
  predicate IsKnownReturnType(ret: string) {
    ret == "void" || ParseType(ret).Some?
  }

  /** `return e;` compiles when `e` has a placeholder type assignable to
      the known return type. */
  lemma ReturnCompiles(ret: string, e: string)
    requires ret != "void" && ParseType(ret).Some?
    requires TypeOfPlaceholder(e).Some? && AssignableTo(TypeOfPlaceholder(e).value, ParseType(ret).value)
    ensures BodyCompiles(ret, Return(e))
  {
    Framed("return ", e, ";");
  }

  /** An empty array creation `new T[]{}` has type `T[]` when `T` parses. */
  lemma EmptyArrayType(base: string)
    requires ParseType(base).Some?
    ensures TypeOfPlaceholder(EmptyArray(base)) == Some(Typed(ArrayOf(ParseType(base).value)))
  {
    var e := EmptyArray(base);
    Framed("new ", base, "[]{}");
    assert |e| == |base| + 8;
  }

  lemma ArrayPlaceholder(ret: string)
    requires EndsWithBrackets(ret) && ParseType(ret).Some?
    ensures BodyCompiles(ret, Return(EmptyArray(ret[..|ret| - 2])))
  {
    var base := ret[..|ret| - 2];
    assert ParseType(base).Some?;
    EmptyArrayType(base);
    ReturnCompiles(ret, EmptyArray(base));
  }

  /** Every known return type gets a placeholder that compiles. */
  lemma DefaultReturnCompiles(ret: string)
    requires IsKnownReturnType(ret)
    ensures BodyCompiles(ret, DefaultReturn(ret))
  {
    if ret == "void" {
    } else if ret == "boolean" {
      ReturnCompiles(ret, "false");
    } else if ret == "long" {
      ReturnCompiles(ret, "0L");
    } else if ret == "double" {
      ReturnCompiles(ret, "0.0");
    } else if ret == "float" {
      ReturnCompiles(ret, "0.0f");
    } else if ret == "String" {
      ReturnCompiles(ret, "\"\"");
    } else if EndsWithBrackets(ret) {
      ArrayPlaceholder(ret);
    } else {
      ReturnCompiles(ret, "0");
    }
  }

  /** The table as written gives a float method `return 0.0;`, which Java
      rejects: a double does not narrow to a float in an assignment
      context. */
  lemma FloatDefaultAsWrittenFails()
    ensures IsKnownReturnType("float")
    ensures !BodyCompiles("float", DefaultReturnAsWritten("float"))
  {
    Framed("return ", "0.0", ";");
  }

  // ---------------------------------------------------------------------
  // The stub text
  // ---------------------------------------------------------------------

  /** The method declaration line: the signature as the stub declares it. */
  function MethodLine(sig: Signature): string {
    "    public static " + FormatSignature(sig) + " {"
  }

  /** The lines of a stub whose body line is `body`, after dedenting; a
      body line left with only indentation (the `void` case) becomes
      empty. */
  function StubLines(package: string, className: string, sig: Signature, body: string): (r: seq<string>)
    ensures |r| == 8
  {
    [ "package " + package + ";",
      "",
      "public class " + className + " {",
      MethodLine(sig),
      "        // TODO: implement solution",
      if body == "" then "" else "        " + body,
      "    }",
      "}" ]
  }

  /** The lines of the stub the generator writes, with the table as
      written. */
  function SolutionLines(package: string, className: string, sig: Signature): seq<string> {
    StubLines(package, className, sig, DefaultReturnAsWritten(sig.ret))
  }

  /** The lines of the stub with the corrected table. */
  function CorrectedSolutionLines(package: string, className: string, sig: Signature): seq<string> {
    StubLines(package, className, sig, DefaultReturn(sig.ret))
  }

  /** The whole stub file, one newline after every line. */
  function SolutionClass(package: string, className: string, sig: Signature): string {
    JoinWith("\n", SolutionLines(package, className, sig)) + "\n"
  }

  /** The placeholder holds no line break unless the return type does. */
  lemma PlaceholderOneLine(ret: string)
    requires '\n' !in ret
    ensures '\n' !in DefaultReturnAsWritten(ret)
  {
    if ret == "void" || ret == "boolean" || ret == "long" || ret == "double" || ret == "float" || ret == "String" {
    } else if EndsWithBrackets(ret) {
      var base := ret[..|ret| - 2];
      assert forall i :: 0 <= i < |base| ==> base[i] == ret[i];
      assert '\n' !in EmptyArray(base);
    }
  }

  /** No line of a stub holds a line break when none of the pieces put
      into it does. */
  lemma StubLinesOneLine(package: string, className: string, sig: Signature, body: string)
    requires '\n' !in package && '\n' !in className && '\n' !in FormatSignature(sig) && '\n' !in body
    ensures forall i :: 0 <= i < |StubLines(package, className, sig, body)| ==> '\n' !in StubLines(package, className, sig, body)[i]
  {
    var lines := StubLines(package, className, sig, body);
    assert '\n' !in lines[0];
    assert '\n' !in lines[2];
    assert '\n' !in lines[3];
    assert '\n' !in lines[5];
  }

  /** Read back line by line, the stub file is its eight lines followed by
      the empty text after the final newline, provided the package, the
      class name and the signature hold no line break. */
  lemma SolutionClassLines(package: string, className: string, sig: Signature)
    requires '\n' !in package && '\n' !in className && '\n' !in FormatSignature(sig)
    ensures SplitOn(SolutionClass(package, className, sig), '\n') == SolutionLines(package, className, sig) + [""]
  {
    assert FormatSignature(sig)[..|sig.ret|] == sig.ret;
    PlaceholderOneLine(sig.ret);
    StubLinesOneLine(package, className, sig, DefaultReturnAsWritten(sig.ret));
    SplitLines(SolutionLines(package, className, sig));
  }


  /** The body line of the stub as written compiles for every known return
      type except `float`. */
  lemma AsWrittenCompiles(ret: string)
    requires IsKnownReturnType(ret)
    ensures BodyCompiles(ret, DefaultReturnAsWritten(ret)) <==> ret != "float"
  {
    if ret == "float" {
      FloatDefaultAsWrittenFails();
    } else {
      DefaultReturnCompiles(ret);
    }
  }

  /** The stub declares the parsed signature faithfully: its declaration
      line reads back, through the signature parser, as the signature it was
      made from. Its body line is the table's placeholder, which compiles
      for a known return type other than `float`. */
  lemma StubDeclaresSignature(package: string, className: string, sig: Signature)
    requires WellFormed(sig)
    ensures var lines := SolutionLines(package, className, sig);
      var head := "    public static ";
      && |lines[3]| >= |head| + 2
      && lines[3][..|head|] == head
      && ParseSignature(lines[3][|head|..|lines[3]| - 2]) == Ok(sig)
    ensures var body := DefaultReturnAsWritten(sig.ret);
      && SolutionLines(package, className, sig)[5] == (if body == "" then "" else "        " + body)
      && (IsKnownReturnType(sig.ret) ==> (BodyCompiles(sig.ret, body) <==> sig.ret != "float"))
  {
    var line := MethodLine(sig);
    assert SolutionLines(package, className, sig)[3] == line;
    Framed("    public static ", FormatSignature(sig), " {");
    assert line[18..|line| - 2] == FormatSignature(sig);
    FormatThenParse(sig);
    if IsKnownReturnType(sig.ret) {
      AsWrittenCompiles(sig.ret);
    }
  }

  /** With the corrected table, the same declaration line and a body line
      that compiles for every known return type. */
  lemma CorrectedStubCompiles(package: string, className: string, sig: Signature)
    requires WellFormed(sig)
    ensures CorrectedSolutionLines(package, className, sig)[3] == SolutionLines(package, className, sig)[3]
    ensures sig.ret != "float" ==> CorrectedSolutionLines(package, className, sig) == SolutionLines(package, className, sig)
    ensures IsKnownReturnType(sig.ret) ==> BodyCompiles(sig.ret, DefaultReturn(sig.ret))
  {
    if IsKnownReturnType(sig.ret) {
      DefaultReturnCompiles(sig.ret);
    }
  }
}

=== FILE: tests.dfy ===
/** `render_test_class`: the JUnit class of a code exercise, one assertion
    per YAML test case, calling the stub's method with the case's arguments
    rendered as Java literals. */
module TestClasses {
  import opened Results
  import opened Text
  import opened Literals
  import opened Stubs

  /** A YAML test case: `args` (absent means empty) and `expected` (absent
      means `None`). */
  datatype TestCase = TestCase(args: seq<Value>, expected: Value)

  /** Why rendering the test class raises. */
  datatype TestError =
    | TooFewArgs(have: nat, need: nat)
    | BadLiteral(cause: LitError)

  /** `java_literal`, with its failure carried as a test-class failure. */
  function Literal(v: Value): (r: Result<string, TestError>)
    ensures r.Ok? <==> Render(v).Ok?
    ensures r.Ok? ==> r.value == Render(v).value
    ensures r.Err? ==> r.error == BadLiteral(Render(v).error)
  {
    match Render(v)
    case Ok(text) => Ok(text)
    case Err(e) => Err(BadLiteral(e))
  }

  /** The argument literals for parameters `i` up to `need`, in parameter
      order: a missing argument raises at its own index, after the earlier
      ones were rendered. */
  function ArgLiterals(args: seq<Value>, need: nat, i: nat): (r: Result<seq<string>, TestError>)
    requires i <= need
    ensures r.Ok? ==> |r.value| == need - i
    decreases need - i
  {
    if i == need then Ok([])
    else if i >= |args| then Err(TooFewArgs(|args|, need))
    else
      match Literal(args[i])
      case Err(e) => Err(e)
      case Ok(lit) =>
        match ArgLiterals(args, need, i + 1)
        case Err(e) => Err(e)
        case Ok(rest) =>
          Ok([lit] + rest)
  }

  /** An assertion call: the assertion method and its arguments. */
  datatype Assertion = Assertion(name: string, args: seq<string>)

  /** The source line of an assertion. */
  function AssertionText(a: Assertion): string {
    "        " + a.name + "(" + JoinWith(", ", a.args) + ");"
  }

  /** The assertion method a return type and expected value call for. */
  function AssertionName(ret: string, expected: Value): string {
    if EndsWithBrackets(ret) then "assertArrayEquals"
    else if ret == "boolean" then (if Truthy(expected) then "assertTrue" else "assertFalse")
    else "assertEquals"
  }

  predicate IsFloating(ret: string) {
    ret == "double" || ret == "float"
  }

  /** The call of the method under test. */
  function Call(className: string, methodName: string, args: seq<string>): string {
    className + "." + methodName + "(" + JoinWith(", ", args) + ")"
  }

  /** The assertion of one case; `params` is the parameter count. The
      expected value is rendered for every kind of assertion except the
      boolean ones. */
  function CaseAssertion(className: string, methodName: string, ret: string, params: nat, tc: TestCase): (r: Result<Assertion, TestError>)
    ensures r.Ok? ==> r.value.name == AssertionName(ret, tc.expected)
  {
    var args :- ArgLiterals(tc.args, params, 0);
    var call := Call(className, methodName, args);
    if EndsWithBrackets(ret) then
      var e :- Literal(tc.expected);
      Ok(Assertion("assertArrayEquals", [e, call]))
    else if ret == "boolean" then
      Ok(Assertion(if Truthy(tc.expected) then "assertTrue" else "assertFalse", [call]))
    else if IsFloating(ret) then
      var e :- Literal(tc.expected);
      Ok(Assertion("assertEquals", [e, call, "1e-9"]))
    else
      var e :- Literal(tc.expected);
      Ok(Assertion("assertEquals", [e, call]))
  }

  /** The assertions of all cases, in order; the first case that raises
      stops the rendering. */
  function CaseAssertions(className: string, methodName: string, ret: string, params: nat, cases: seq<TestCase>): (r: Result<seq<Assertion>, TestError>)
    ensures r.Ok? ==> |r.value| == |cases|
  {
    if cases == [] then Ok([])
    else
      var head :- CaseAssertion(className, methodName, ret, params, cases[0]);
      var tail :- CaseAssertions(className, methodName, ret, params, cases[1..]);
      Ok([head] + tail)
  }

  function AssertionTexts(assertions: seq<Assertion>): (r: seq<string>)
    ensures |r| == |assertions|
    ensures forall k :: 0 <= k < |assertions| ==> r[k] == AssertionText(assertions[k])
  {
    if assertions == [] then [] else [AssertionText(assertions[0])] + AssertionTexts(assertions[1..])
  }

  /** The lines of the test class: the header, the `providedCases` method
      holding one assertion line per case, and the closing brace. */
  function TestLines(package: string, className: string, assertions: seq<Assertion>): (r: seq<string>)
    ensures |r| == |assertions| + 10
  {
    [ "package " + package + ";",
      "",
      "import org.junit.jupiter.api.Test;",
      "import static org.junit.jupiter.api.Assertions.*;",
      "",
      "public class " + className + "Test {",
      "    @Test",
      "    public void providedCases() {" ]
    + AssertionTexts(assertions)
    + [ "    }", "}" ]
  }

  /** `render_test_class(package, class_name, test_cases, ret_type,
      method_name, params)`: the file text, or the error that stopped it. */
  function RenderTestClass(package: string, className: string, cases: seq<TestCase>, ret: string, methodName: string, params: nat): Result<string, TestError> {
    var assertions :- CaseAssertions(className, methodName, ret, params, cases);
    Ok(JoinWith("\n", TestLines(package, className, assertions)) + "\n")
  }

  // ---------------------------------------------------------------------
  // When a test class renders
  // ---------------------------------------------------------------------

  /** A case renders exactly when it has an argument for every parameter,
      those arguments are supported literals, and the expected value is one
      too unless the method returns `boolean`. */
  predicate CaseRenders(ret: string, params: nat, tc: TestCase) {
    && params <= |tc.args|
    && (forall i :: 0 <= i < params ==> Supported(tc.args[i]))
    && (ret == "boolean" || Supported(tc.expected))
  }

  /** The argument literals render exactly when there are enough
      arguments and each of those used is a supported value. */
  lemma {:induction false} ArgLiteralsOk(args: seq<Value>, need: nat, i: nat)
    requires i <= need
    ensures ArgLiterals(args, need, i).Ok? <==>
      && (i == need || need <= |args|)
      && forall j :: i <= j < need && j < |args| ==> Supported(args[j])
    decreases need - i
  {
    if i < need && i < |args| {
      RenderOk(args[i]);
      ArgLiteralsOk(args, need, i + 1);
    }
  }

  /** The argument literals, when they render, are the literals of the
      arguments at the same positions. */
  lemma {:induction false} ArgLiteralsEach(args: seq<Value>, need: nat, i: nat)
    requires i <= need
    requires ArgLiterals(args, need, i).Ok?
    ensures i < need ==> need <= |args|
    ensures var lits := ArgLiterals(args, need, i).value;
      forall j :: 0 <= j < |lits| ==> i + j < |args| && RendersAs(args[i + j], lits[j])
    decreases need - i
  {
    if i < need {
      var lits := ArgLiterals(args, need, i).value;
      var rest := ArgLiterals(args, need, i + 1).value;
      ArgLiteralsEach(args, need, i + 1);
      assert need <= |args|;
      assert RendersAs(args[i], lits[0]);
      assert lits == [lits[0]] + rest;
      forall j | 0 <= j < |lits|
        ensures RendersAs(args[i + j], lits[j])
      {
        if j > 0 {
          assert lits[j] == rest[j - 1];
          assert i + j == (i + 1) + (j - 1);
        }
      }
    }
  }

  /** A case whose arguments all render but are too few raises the arity
      error, naming both counts. */
  lemma {:induction false} ArgLiteralsTooFew(args: seq<Value>, need: nat, i: nat)
    requires i <= |args| < need
    requires forall j :: i <= j < |args| ==> Supported(args[j])
    ensures ArgLiterals(args, need, i) == Err(TooFewArgs(|args|, need))
    decreases |args| - i
  {
    if i < |args| {
      RenderOk(args[i]);
      ArgLiteralsTooFew(args, need, i + 1);
    }
  }

  /** Arguments beyond the parameters are never looked at. */
  lemma {:induction false} ArgLiteralsIgnoreExtra(args: seq<Value>, extra: seq<Value>, need: nat, i: nat)
    requires i <= need <= |args|
    ensures ArgLiterals(args + extra, need, i) == ArgLiterals(args, need, i)
    decreases need - i
  {
    if i < need {
      assert (args + extra)[i] == args[i];
      ArgLiteralsIgnoreExtra(args, extra, need, i + 1);
    }
  }

  /** One case renders exactly when `CaseRenders` holds. */
  lemma CaseAssertionOk(className: string, methodName: string, ret: string, params: nat, tc: TestCase)
    ensures CaseAssertion(className, methodName, ret, params, tc).Ok? <==> CaseRenders(ret, params, tc)
  {
    ArgLiteralsOk(tc.args, params, 0);
    RenderOk(tc.expected);
  }

  /** The test class renders exactly when every case does. */
  lemma {:induction false} CaseAssertionsOk(className: string, methodName: string, ret: string, params: nat, cases: seq<TestCase>)
    ensures CaseAssertions(className, methodName, ret, params, cases).Ok? <==> forall k :: 0 <= k < |cases| ==> CaseRenders(ret, params, cases[k])
  {
    if cases != [] {
      CaseAssertionOk(className, methodName, ret, params, cases[0]);
      CaseAssertionsOk(className, methodName, ret, params, cases[1..]);
      assert forall k :: 1 <= k < |cases| ==> cases[k] == cases[1..][k - 1];
    }
  }

  /** The error reported is the one of the first case that raises. */
  lemma {:induction false} CaseAssertionsFirstError(className: string, methodName: string, ret: string, params: nat, cases: seq<TestCase>, k: nat)
    requires k < |cases|
    requires forall j :: 0 <= j < k ==> CaseAssertion(className, methodName, ret, params, cases[j]).Ok?
    requires CaseAssertion(className, methodName, ret, params, cases[k]).Err?
    ensures CaseAssertions(className, methodName, ret, params, cases).Err?
    ensures CaseAssertions(className, methodName, ret, params, cases).error == CaseAssertion(className, methodName, ret, params, cases[k]).error
  {
    if k > 0 {
      assert forall j :: 0 <= j < k - 1 ==> cases[1..][j] == cases[j + 1];
      CaseAssertionsFirstError(className, methodName, ret, params, cases[1..], k - 1);
    }
  }

  /** A case with too few arguments, all of them renderable, raises the
      arity error naming both counts. */
  lemma CaseTooFewArgs(className: string, methodName: string, ret: string, params: nat, tc: TestCase)
    requires |tc.args| < params
    requires forall j :: 0 <= j < |tc.args| ==> Supported(tc.args[j])
    ensures CaseAssertion(className, methodName, ret, params, tc) == Err(TooFewArgs(|tc.args|, params))
  {
    ArgLiteralsTooFew(tc.args, params, 0);
  }

  /** Arguments past the parameter count do not change the assertion. */
  lemma CaseIgnoresExtraArgs(className: string, methodName: string, ret: string, params: nat, tc: TestCase, extra: seq<Value>)
    requires params <= |tc.args|
    ensures CaseAssertion(className, methodName, ret, params, TestCase(tc.args + extra, tc.expected))
         == CaseAssertion(className, methodName, ret, params, tc)
  {
    ArgLiteralsIgnoreExtra(tc.args, extra, params, 0);
  }

  /** For a `boolean` method only the truthiness of the expected value
      matters: it is never rendered, so even an unsupported one is fine. */
  lemma BooleanIgnoresExpected(className: string, methodName: string, params: nat, tc: TestCase, other: Value)
    requires Truthy(other) == Truthy(tc.expected)
    ensures CaseAssertion(className, methodName, "boolean", params, TestCase(tc.args, other))
         == CaseAssertion(className, methodName, "boolean", params, tc)
  {
    assert !EndsWithBrackets("boolean");
  }

  /** The expected value of a non-boolean case is rendered as the first
      assertion argument and the call comes second; a floating-point
      comparison adds the tolerance `1e-9` as a third. */
  lemma CaseArguments(className: string, methodName: string, ret: string, params: nat, tc: TestCase)
    requires CaseAssertion(className, methodName, ret, params, tc).Ok?
    ensures var a := CaseAssertion(className, methodName, ret, params, tc).value;
      var call := Call(className, methodName, ArgLiterals(tc.args, params, 0).value);
      && ArgLiterals(tc.args, params, 0).Ok?
      && |ArgLiterals(tc.args, params, 0).value| == params <= |tc.args|
      && (forall j :: 0 <= j < params ==> RendersAs(tc.args[j], ArgLiterals(tc.args, params, 0).value[j]))
      && (ret == "boolean" ==> a.args == [call])
      && (ret != "boolean" ==>
            && |a.args| == (if IsFloating(ret) then 3 else 2)
            && Render(tc.expected).Ok?
            && a.args[0] == Render(tc.expected).value
            && a.args[1] == call
            && (IsFloating(ret) ==> a.args[2] == "1e-9"))
  {
    assert !EndsWithBrackets("boolean") && !EndsWithBrackets("double") && !EndsWithBrackets("float");
    ArgLiteralsEach(tc.args, params, 0);
  }

  /** The test class renders exactly when every case does. */
  lemma RenderTestClassOk(package: string, className: string, cases: seq<TestCase>, ret: string, methodName: string, params: nat)
    ensures RenderTestClass(package, className, cases, ret, methodName, params).Ok? <==>
      forall k :: 0 <= k < |cases| ==> CaseRenders(ret, params, cases[k])
  {
    CaseAssertionsOk(className, methodName, ret, params, cases);
  }

  /** Each assertion is the one of the case at the same position. */
  lemma {:induction false} CaseAssertionsEach(className: string, methodName: string, ret: string, params: nat, cases: seq<TestCase>)
    requires CaseAssertions(className, methodName, ret, params, cases).Ok?
    ensures forall k :: 0 <= k < |cases| ==>
      CaseAssertion(className, methodName, ret, params, cases[k]).Ok? &&
      CaseAssertion(className, methodName, ret, params, cases[k]).value == CaseAssertions(className, methodName, ret, params, cases).value[k]
  {
    if cases != [] {
      CaseAssertionsEach(className, methodName, ret, params, cases[1..]);
      assert forall k :: 1 <= k < |cases| ==> cases[k] == cases[1..][k - 1];
    }
  }

  /** The class holds exactly one assertion line per case, in case order,
      between the method header and the closing braces. */
  lemma TestClassLines(package: string, className: string, cases: seq<TestCase>, ret: string, methodName: string, params: nat)
    requires CaseAssertions(className, methodName, ret, params, cases).Ok?
    ensures var lines := TestLines(package, className, CaseAssertions(className, methodName, ret, params, cases).value);
      && |lines| == |cases| + 10
      && lines[7] == "    public void providedCases() {"
      && lines[|lines| - 2] == "    }"
      && forall k :: 0 <= k < |cases| ==>
           CaseAssertion(className, methodName, ret, params, cases[k]).Ok? &&
           lines[8 + k] == AssertionText(CaseAssertion(className, methodName, ret, params, cases[k]).value)
  {
    var assertions := CaseAssertions(className, methodName, ret, params, cases).value;
    CaseAssertionsEach(className, methodName, ret, params, cases);
    var lines := TestLines(package, className, assertions);
    var texts := AssertionTexts(assertions);
    assert forall k :: 0 <= k < |cases| ==> lines[8 + k] == texts[k];
  }
}

=== FILE: text.dfy ===
/** ASCII character classes and the handful of Python `str` / `re` primitives
    the generator relies on: `\s`, `\w`, `str.split()`, `str.split(",")`,
    `str.strip()`, `str.lower()`, `",".join(...)` and `str.replace`. */
module Text {

  // ---------------------------------------------------------------------
  // Character classes (ASCII restriction of Python's Unicode classes)
  // ---------------------------------------------------------------------

  /** Python's `\s` and `str.isspace()` on ASCII: TAB..CR, the four
      information separators 0x1C..0x1F, and SPACE. */
  predicate IsSpace(c: char) {
    c == ' ' || ('\t' <= c <= '\r') || ('\U{1C}' <= c <= '\U{1F}')
  }

  predicate IsNonSpace(c: char) {
    !IsSpace(c)
  }

  predicate IsUpper(c: char) {
    'A' <= c <= 'Z'
  }

  predicate IsLower(c: char) {
    'a' <= c <= 'z'
  }

  /** `str.isalpha()`, and "cased" for `str.title()`. */
  predicate IsLetter(c: char) {
    IsUpper(c) || IsLower(c)
  }

  predicate IsDigit(c: char) {
    '0' <= c <= '9'
  }

  /** `str.isalnum()`. */
  predicate IsAlnum(c: char) {
    IsLetter(c) || IsDigit(c)
  }

  /** The regex class `\w`. */
  predicate IsWordChar(c: char) {
    IsAlnum(c) || c == '_'
  }

  /** The regex class `[A-Za-z_]`. */
  predicate IsIdentStart(c: char) {
    IsLetter(c) || c == '_'
  }

  function ToLower(c: char): (r: char)
    ensures IsUpper(c) ==> IsLower(r)
    ensures !IsUpper(c) ==> r == c
  {
    if IsUpper(c) then (c as int + 32) as char else c
  }

  function ToUpper(c: char): (r: char)
    ensures IsLower(c) ==> IsUpper(r)
    ensures !IsLower(c) ==> r == c
  {
    if IsLower(c) then (c as int - 32) as char else c
  }

  predicate AllSpace(s: string) {
    forall i :: 0 <= i < |s| ==> IsSpace(s[i])
  }

  predicate NoSpace(s: string) {
    forall i :: 0 <= i < |s| ==> !IsSpace(s[i])
  }

  /** A whitespace-free, non-empty token, as produced by `str.split()`. */
  predicate IsToken(s: string) {
    s != [] && NoSpace(s)
  }

  // ---------------------------------------------------------------------
  // Scanning and trimming
  // ---------------------------------------------------------------------

  /** Length of the longest prefix of `s` all of whose characters satisfy `p`
      (what a greedy `[...]*` consumes). */
  function SpanOf(s: string, p: char -> bool): (n: nat)
    ensures n <= |s|
    ensures forall i :: 0 <= i < n ==> p(s[i])
    ensures n < |s| ==> !p(s[n])
  {
    if s == [] || !p(s[0]) then 0 else 1 + SpanOf(s[1..], p)
  }

  /** A greedy span stops exactly where the run of `p` characters ends. */
  lemma SpanOfRun(a: string, b: string, p: char -> bool)
    requires forall i :: 0 <= i < |a| ==> p(a[i])
    requires b == [] || !p(b[0])
    ensures SpanOf(a + b, p) == |a|
  {
    var n := SpanOf(a + b, p);
    assert forall i :: 0 <= i < |a| ==> (a + b)[i] == a[i];
    assert b != [] ==> (a + b)[|a|] == b[0];
  }

  /** `s` without its leading whitespace (`str.lstrip()`). */
  function TrimLeft(s: string): string {
    s[SpanOf(s, IsSpace)..]
  }

  /** `s` without its trailing run of `p` characters. */
  function TrimRightBy(s: string, p: char -> bool): (r: string)
    ensures r <= s
    ensures forall i :: |r| <= i < |s| ==> p(s[i])
    ensures r == [] || !p(r[|r| - 1])
  {
    if s != [] && p(s[|s| - 1]) then TrimRightBy(s[..|s| - 1], p) else s
  }

  /** Trimming a trailing run leaves exactly what precedes it. */
  lemma {:induction false} TrimRightByPadded(x: string, w: string, p: char -> bool)
    requires x == [] || !p(x[|x| - 1])
    requires forall i :: 0 <= i < |w| ==> p(w[i])
    ensures TrimRightBy(x + w, p) == x
    decreases |w|
  {
    if w == [] {
      assert x + w == x;
    } else {
      var s := x + w;
      var front := w[..|w| - 1];
      assert s[|s| - 1] == w[|w| - 1];
      assert s[..|s| - 1] == x + front;
      TrimRightByPadded(x, front, p);
    }
  }

  /** A run of `p` characters is consumed whole. */
  lemma SpanOfAll(s: string, p: char -> bool)
    requires forall i :: 0 <= i < |s| ==> p(s[i])
    ensures SpanOf(s, p) == |s|
  {
    SpanOfRun(s, [], p);
    assert s + [] == s;
  }

  function TrimRight(s: string): string {
    TrimRightBy(s, IsSpace)
  }

  /** `str.strip()` with no argument. */
  function Strip(s: string): string {
    TrimRight(TrimLeft(s))
  }

  /** Whitespace around a string whose ends are not whitespace is all that
      `Strip` removes. */
  lemma StripPadded(w1: string, x: string, w2: string)
    requires AllSpace(w1) && AllSpace(w2)
    requires x != [] && !IsSpace(x[0]) && !IsSpace(x[|x| - 1])
    ensures Strip(w1 + x + w2) == x
  {
    SpanOfRun(w1, x + w2, IsSpace);
    assert w1 + x + w2 == w1 + (x + w2);
    assert TrimLeft(w1 + x + w2) == x + w2;
    TrimRightByPadded(x, w2, IsSpace);
  }

  /** `str.strip()` gives the empty string exactly for blank input. */
  lemma StripEmpty(s: string)
    ensures Strip(s) == [] <==> AllSpace(s)
  {
    if AllSpace(s) {
      SpanOfAll(s, IsSpace);
    }
  }

  /** Stripping only removes characters. */
  lemma StripInherits(s: string, c: char)
    requires c !in s
    ensures c !in Strip(s)
  {
    var t := TrimLeft(s);
    SliceAvoids(s, c, SpanOf(s, IsSpace), |s|);
    SliceAvoids(t, c, 0, |TrimRight(t)|);
  }

  // ---------------------------------------------------------------------
  // Splitting and joining
  // ---------------------------------------------------------------------

  lemma SplitAt(s: string, n: nat)
    requires n <= |s|
    ensures s == s[..n] + s[n..]
  {
  }

  /** Cutting `a` at `n` regroups `a + b + c` around the cut. */
  lemma Regroup(a: string, b: string, c: string, n: nat)
    requires n <= |a|
    ensures a + b + c == a[..n] + (a[n..] + b + c)
    ensures a == a[..n] + a[n..]
  {
  }

  /** The three pieces of `a + b + c` are recovered by slicing. */
  lemma Framed(a: string, b: string, c: string)
    ensures var s := a + b + c;
      && s[..|a|] == a
      && s[|a|..|s| - |c|] == b
      && s[|s| - |c|..] == c
  {
  }

  /** A leading blank is skipped by `TrimLeft`. */
  lemma TrimLeftCons(s: string)
    requires s != [] && IsSpace(s[0])
    ensures TrimLeft(s) == TrimLeft(s[1..])
  {
    assert SpanOf(s, IsSpace) == 1 + SpanOf(s[1..], IsSpace);
  }

  /** Leading whitespace is all that `TrimLeft` looks past. */
  lemma {:induction false} TrimLeftSkip(w: string, x: string)
    requires AllSpace(w)
    ensures TrimLeft(w + x) == TrimLeft(x)
    decreases |w|
  {
    if w == [] {
      assert w + x == x;
    } else {
      TrimLeftCons(w + x);
      assert (w + x)[1..] == w[1..] + x;
      TrimLeftSkip(w[1..], x);
    }
  }

  /** `str.split()` with no argument: the maximal whitespace-free runs. */
  function Words(s: string): (r: seq<string>)
    ensures forall i :: 0 <= i < |r| ==> IsToken(r[i])
    decreases |s|
  {
    var t := TrimLeft(s);
    if t == [] then []
    else
      var n := SpanOf(t, IsNonSpace);
      [t[..n]] + Words(t[n..])
  }

  /** Leading whitespace never changes the words. */
  lemma WordsSkipSpace(w: string, x: string)
    requires AllSpace(w)
    ensures Words(w + x) == Words(x)
  {
    TrimLeftSkip(w, x);
  }

  /** The words of a string are pieces of it. */
  lemma {:induction false} WordsInherit(s: string, c: char)
    requires c !in s
    ensures forall i :: 0 <= i < |Words(s)| ==> c !in Words(s)[i]
    decreases |s|
  {
    var t := TrimLeft(s);
    SliceAvoids(s, c, SpanOf(s, IsSpace), |s|);
    if t != [] {
      var n := SpanOf(t, IsNonSpace);
      SliceAvoids(t, c, 0, n);
      SliceAvoids(t, c, n, |t|);
      WordsInherit(t[n..], c);
    }
  }

  /** A slice holds no character its string does not. */
  lemma SliceAvoids(s: string, c: char, i: nat, j: nat)
    requires i <= j <= |s| && c !in s
    ensures c !in s[i..j]
  {
    forall k | 0 <= k < j - i
      ensures s[i..j][k] != c
    {
      assert s[i..j][k] == s[i + k];
    }
  }

  /** `sep.join(parts)`. */
  function JoinWith(sep: string, parts: seq<string>): string {
    if |parts| == 0 then ""
    else if |parts| == 1 then parts[0]
    else parts[0] + sep + JoinWith(sep, parts[1..])
  }

  /** A character found in none of the pieces nor the separator is not in
      the joined string. */
  lemma {:induction false} JoinWithAvoids(sep: string, parts: seq<string>, c: char)
    requires c !in sep
    requires forall i :: 0 <= i < |parts| ==> c !in parts[i]
    ensures c !in JoinWith(sep, parts)
    decreases |parts|
  {
    if |parts| > 1 {
      JoinWithAvoids(sep, parts[1..], c);
    }
  }

  /** Whatever holds of every character of the pieces and the separator
      holds of every character of the joined string. */
  lemma {:induction false} JoinWithInherits(sep: string, parts: seq<string>, p: char -> bool)
    requires forall i :: 0 <= i < |sep| ==> p(sep[i])
    requires forall k, i :: 0 <= k < |parts| && 0 <= i < |parts[k]| ==> p(parts[k][i])
    ensures forall i :: 0 <= i < |JoinWith(sep, parts)| ==> p(JoinWith(sep, parts)[i])
    decreases |parts|
  {
    if |parts| > 1 {
      JoinWithInherits(sep, parts[1..], p);
      var rest := JoinWith(sep, parts[1..]);
      var j := parts[0] + sep + rest;
      forall i | 0 <= i < |j|
        ensures p(j[i])
      {
        if i < |parts[0]| {
          assert j[i] == parts[0][i];
        } else if i < |parts[0]| + |sep| {
          assert j[i] == sep[i - |parts[0]|];
        } else {
          assert j[i] == rest[i - |parts[0]| - |sep|];
        }
      }
    }
  }

  /** The joined string begins with the first piece and ends with the last. */
  lemma {:induction false} JoinWithEnds(sep: string, parts: seq<string>)
    requires parts != [] && forall i :: 0 <= i < |parts| ==> parts[i] != []
    ensures var j := JoinWith(sep, parts);
      j != [] && j[0] == parts[0][0] && j[|j| - 1] == parts[|parts| - 1][|parts[|parts| - 1]| - 1]
    decreases |parts|
  {
    if |parts| > 1 {
      JoinWithEnds(sep, parts[1..]);
    }
  }

  lemma {:induction false} JoinWithSnoc(sep: string, parts: seq<string>, x: string)
    requires parts != []
    ensures JoinWith(sep, parts + [x]) == JoinWith(sep, parts) + sep + x
    decreases |parts|
  {
    if |parts| == 1 {
      assert parts + [x] == [parts[0], x];
    } else {
      assert (parts + [x])[1..] == parts[1..] + [x];
      JoinWithSnoc(sep, parts[1..], x);
    }
  }

  /** Every piece with `pre` in front of it. */
  function Prefixed(pre: string, parts: seq<string>): (r: seq<string>)
    ensures |r| == |parts|
    ensures forall i :: 0 <= i < |parts| ==> r[i] == pre + parts[i]
  {
    if parts == [] then [] else [pre + parts[0]] + Prefixed(pre, parts[1..])
  }

  /** The tail `b` of a separator `a + b` can be moved onto the pieces:
      joining with `", "` is joining with `","` the pieces after the first,
      each with a blank in front. */
  lemma {:induction false} JoinWithPrefixed(a: string, b: string, parts: seq<string>)
    requires parts != []
    ensures b + JoinWith(a + b, parts) == JoinWith(a, Prefixed(b, parts))
    decreases |parts|
  {
    if |parts| > 1 {
      var rest := JoinWith(a + b, parts[1..]);
      JoinWithPrefixed(a, b, parts[1..]);
      assert Prefixed(b, parts)[1..] == Prefixed(b, parts[1..]);
      assert b + (parts[0] + (a + b) + rest) == (b + parts[0]) + a + (b + rest);
    }
  }

  /** Joining tokens with single spaces and splitting again gives back the
      tokens: `" ".join(ws).split() == ws`. */
  lemma {:induction false} WordsOfJoin(ws: seq<string>)
    requires forall i :: 0 <= i < |ws| ==> IsToken(ws[i])
    ensures Words(JoinWith(" ", ws)) == ws
    decreases |ws|
  {
    if |ws| == 0 {
    } else {
      var s := JoinWith(" ", ws);
      var rest := if |ws| == 1 then "" else " " + JoinWith(" ", ws[1..]);
      assert s == ws[0] + rest;
      SpanOfRun([], s, IsSpace);
      assert s[0..] == s;
      SpanOfRun(ws[0], rest, IsNonSpace);
      assert s[|ws[0]|..] == rest;
      if |ws| > 1 {
        WordsSkipSpace(" ", JoinWith(" ", ws[1..]));
        WordsOfJoin(ws[1..]);
      }
    }
  }

  /** Position of the first `c` in `s`. */
  function IndexOf(s: string, c: char): (i: nat)
    requires c in s
    ensures i < |s| && s[i] == c && c !in s[..i]
  {
    if s[0] == c then 0 else 1 + IndexOf(s[1..], c)
  }

  /** `s.split(c)`: the pieces between occurrences of `c`; one more piece
      than there are occurrences. */
  function SplitOn(s: string, c: char): (r: seq<string>)
    ensures |r| >= 1
    ensures forall i :: 0 <= i < |r| ==> c !in r[i]
    decreases |s|
  {
    if c in s then
      var i := IndexOf(s, c);
      [s[..i]] + SplitOn(s[i + 1..], c)
    else [s]
  }

  /** The first occurrence is the only position with `c` and none before. */
  lemma IndexOfFirst(s: string, c: char, k: nat)
    requires k < |s| && s[k] == c && c !in s[..k]
    ensures IndexOf(s, c) == k
  {
  }

  lemma SplitOnFirst(a: string, c: char, b: string)
    requires c !in a
    ensures SplitOn(a + [c] + b, c) == [a] + SplitOn(b, c)
  {
    var s := a + [c] + b;
    assert s[..|a|] == a;
    assert s[|a|] == c;
    IndexOfFirst(s, c, |a|);
    assert s[|a| + 1..] == b;
  }

  /** Splitting a `c`-joined list of `c`-free pieces recovers the pieces. */
  lemma {:induction false} SplitOnJoin(parts: seq<string>, c: char)
    requires parts != []
    requires forall i :: 0 <= i < |parts| ==> c !in parts[i]
    ensures SplitOn(JoinWith([c], parts), c) == parts
    decreases |parts|
  {
    if |parts| == 1 {
      assert c !in parts[0];
    } else {
      SplitOnFirst(parts[0], c, JoinWith([c], parts[1..]));
      SplitOnJoin(parts[1..], c);
      assert parts == [parts[0]] + parts[1..];
    }
  }

  /** Text written as lines, each ended by a newline, splits back into
      those lines and the empty text after the last newline. */
  lemma SplitLines(lines: seq<string>)
    requires lines != []
    requires forall i :: 0 <= i < |lines| ==> '\n' !in lines[i]
    ensures SplitOn(JoinWith("\n", lines) + "\n", '\n') == lines + [""]
  {
    var all := lines + [""];
    JoinWithSnoc("\n", lines, "");
    assert JoinWith("\n", lines) + "\n" + "" == JoinWith("\n", lines) + "\n";
    assert "\n" == ['\n'];
    forall i | 0 <= i < |all|
      ensures '\n' !in all[i]
    {
      if i < |lines| {
        assert all[i] == lines[i];
      }
    }
    SplitOnJoin(all, '\n');
  }

  /** Joining with `a + b` is joining with `a` the first piece and the
      others with `b` in front of each. */
  lemma JoinWithSplitSep(a: string, b: string, parts: seq<string>)
    requires parts != []
    ensures JoinWith(a + b, parts) == JoinWith(a, [parts[0]] + Prefixed(b, parts[1..]))
  {
    var q := [parts[0]] + Prefixed(b, parts[1..]);
    if |parts| > 1 {
      JoinWithPrefixed(a, b, parts[1..]);
      assert q[1..] == Prefixed(b, parts[1..]);
      assert JoinWith(a, q) == parts[0] + a + JoinWith(a, q[1..]);
    }
  }

  lemma PrefixedAvoids(pre: string, parts: seq<string>, c: char)
    requires c !in pre
    requires forall i :: 0 <= i < |parts| ==> c !in parts[i]
    ensures forall i :: 0 <= i < |parts| ==> c !in Prefixed(pre, parts)[i]
  {
    forall i | 0 <= i < |parts|
      ensures c !in Prefixed(pre, parts)[i]
    {
      assert Prefixed(pre, parts)[i] == pre + parts[i];
    }
  }

  /** `", ".join(parts).split(",")` gives the parts back, all but the first
      with the blank that followed its comma. */
  lemma SplitCommaSpaceJoin(parts: seq<string>)
    requires parts != []
    requires forall i :: 0 <= i < |parts| ==> ',' !in parts[i]
    ensures SplitOn(JoinWith(", ", parts), ',') == [parts[0]] + Prefixed(" ", parts[1..])
  {
    var q := [parts[0]] + Prefixed(" ", parts[1..]);
    assert "," + " " == ", ";
    JoinWithSplitSep(",", " ", parts);
    PrefixedAvoids(" ", parts[1..], ',');
    forall i | 0 <= i < |q|
      ensures ',' !in q[i]
    {
      if i > 0 {
        assert q[i] == Prefixed(" ", parts[1..])[i - 1];
      }
    }
    SplitOnJoin(q, ',');
  }

  // ---------------------------------------------------------------------
  // Character-wise maps and filters
  // ---------------------------------------------------------------------

  /** `str.lower()`. */
  function Lower(s: string): (r: string)
    ensures |r| == |s|
    ensures forall i :: 0 <= i < |s| ==> r[i] == ToLower(s[i])
  {
    if s == [] then [] else [ToLower(s[0])] + Lower(s[1..])
  }

  lemma LowerConcat(a: string, b: string)
    ensures Lower(a + b) == Lower(a) + Lower(b)
  {
    var l, r := Lower(a + b), Lower(a) + Lower(b);
    forall i | 0 <= i < |l|
      ensures l[i] == r[i]
    {
      if i < |a| {
        assert (a + b)[i] == a[i];
      } else {
        assert (a + b)[i] == b[i - |a|];
      }
    }
  }

  /** The characters of `s` that satisfy `p`, in order. */
  function Keep(s: string, p: char -> bool): (r: string)
    ensures |r| <= |s|
    ensures forall i :: 0 <= i < |r| ==> p(r[i])
  {
    if s == [] then []
    else if p(s[0]) then [s[0]] + Keep(s[1..], p)
    else Keep(s[1..], p)
  }

  lemma {:induction false} KeepConcat(a: string, b: string, p: char -> bool)
    ensures Keep(a + b, p) == Keep(a, p) + Keep(b, p)
    decreases |a|
  {
    if a == [] {
      assert a + b == b;
    } else {
      assert (a + b)[1..] == a[1..] + b;
      KeepConcat(a[1..], b, p);
    }
  }

  /** Whatever holds of every character of `s` holds of every character
      kept from it. */
  lemma {:induction false} KeepInherits(s: string, p: char -> bool, q: char -> bool)
    requires forall i :: 0 <= i < |s| ==> q(s[i])
    ensures forall i :: 0 <= i < |Keep(s, p)| ==> q(Keep(s, p)[i])
    decreases |s|
  {
    if s != [] {
      KeepInherits(s[1..], p, q);
    }
  }

  lemma {:induction false} KeepAll(s: string, p: char -> bool)
    requires forall i :: 0 <= i < |s| ==> p(s[i])
    ensures Keep(s, p) == s
    decreases |s|
  {
    if s != [] {
      KeepAll(s[1..], p);
    }
  }

  lemma {:induction false} KeepNone(s: string, p: char -> bool)
    requires forall i :: 0 <= i < |s| ==> !p(s[i])
    ensures Keep(s, p) == []
    decreases |s|
  {
    if s != [] {
      KeepNone(s[1..], p);
    }
  }

  /** `s.replace(c, rep)` for a one-character pattern. */
  function ReplaceChar(s: string, c: char, rep: string): string {
    if s == [] then []
    else (if s[0] == c then rep else [s[0]]) + ReplaceChar(s[1..], c, rep)
  }

  lemma {:induction false} ReplaceCharConcat(a: string, b: string, c: char, rep: string)
    ensures ReplaceChar(a + b, c, rep) == ReplaceChar(a, c, rep) + ReplaceChar(b, c, rep)
    decreases |a|
  {
    if a == [] {
      assert a + b == b;
    } else {
      assert (a + b)[1..] == a[1..] + b;
      ReplaceCharConcat(a[1..], b, c, rep);
    }
  }
}
